=== FILE: README.md ===
# Bitty signal routing, modelled in Dafny

Bitty is a custom element (`<bitty-2-0>`) that wires markup to a
controller object. Descendants declare the signals they receive with
`data-receive`. Elements that emit signals declare them with `data-send`.
A one-shot `data-forward` overrides `data-send`. The host connects to a
controller class through `data-connect`, and names are pipe-delimited
(`"a|b"`). This project models the element's routing core, class `BittyJs`
in `docs/components/bitty-2.0.0-rc1.full.js`, as pure functions over
immutable data, and proves the properties the code promises.

- **DOM.** The host is its own dataset (`map<string, string>`) plus its
  descendants in document order (`seq<Element>`). An element is named by
  its index in that sequence.
- **Controller.** A controller is the set of names of its truthy
  properties (`this.conn[name]` is truthy), which is what binding and
  the fallback test, and the set of its function-valued properties,
  which is what `callBittyInit` tests. Once connected, the host stores
  itself on the controller as `api`, so `api` is truthy but not a
  function.
- **Calls.** A dispatch returns a trace of `Invocation(signal, element)`:
  `Some(i)` for a bound receiver, `None` for the controller's fallback
  called with `null`.
- **Environment.** `crypto.randomUUID` is a parameter
  `supply: nat -> string` read through a counter. The globals on `window`
  and the modules a dynamic `import` can load are an `Env` value.

Modules:

- `Base`: `Option`, `Result`, occurrence counting.
- `Text`: the ECMAScript `trim` whitespace set, one-character `split`,
  `join`, and the declaration reader `SplitNames` (`split("|").map(trim)`).
- `Replace`: `replaceAll` with a string pattern, following the ECMAScript
  algorithm. This covers the empty pattern and the `$$ $& $` $'`
  replacement patterns, which a page value used as a replacement may
  contain. It also holds the ordered substitution list.
- `Dom`: elements, datasets, JavaScript truthiness of a dataset entry.
- `Ids`: `setIds` and `match`.
- `Receivers`: `addReceiver` and `loadReceivers`.
- `Dispatch`: `processSignals`, `handleEvent` and `forward`.
- `Bridge`: the listener configuration and the document-level listener
  filter of `addEventListeners`.
- `Connection`: `makeConnection` as a resolution function.
- `Fetch`: `useTemplate`, `fetchTxt`, `fetchTemplate` and `fetchLines` on
  a given response.
- `Lifecycle`: `connectedCallback`, `runSendFromComponent` and
  `handleMutations`.
- `Scenarios`: small pages worked through the model.

The model follows the code where the code and its documentation differ:

- Empty pipe segments are kept. `"a||b"` declares `a`, `""` and `b`.
- `data-listeners=""` keeps the default listeners `click` and `input`
  rather than disabling listening.
- The bridge admits an event only on a truthy `data-send`. A target with
  only `data-forward` is ignored.
- Every connected host installs its own document listeners, so every host
  dispatches every qualifying event against its own table.
- `fetchTxt` catches a non-ok response and yields `undefined` with one
  logged line. A rejected `fetch` happens before the `try`, so that
  failure escapes to the caller instead of yielding `undefined`.
- `forward(event, "")` sets `forward` to `""` on the target. That value
  is falsy, so the target's `send` is dispatched and `forward: ""` stays.

## Model

| member | source | states |
|---|---|---|
| `Text.Trim` | docs/components/bitty-2.0.0-rc1.full.js:328 | The result has no surrounding whitespace. It is the slice of the input starting at the first non-space character, and only whitespace precedes and follows it. |
| `Text.TrimIdempotent` | docs/components/bitty-2.0.0-rc1.full.js:328 | Trimming twice is trimming once. |
| `Text.TrimTrimmed` | docs/components/bitty-2.0.0-rc1.full.js:328 | A string without surrounding whitespace is left unchanged by `trim`. |
| `Text.TrimExcludes` | docs/components/bitty-2.0.0-rc1.full.js:328 | Trimming never introduces a character, so a trimmed pipe-free piece stays pipe-free. |
| `Text.Split` | docs/components/bitty-2.0.0-rc1.full.js:385 | `split` on one character gives one more piece than there are separators, empty pieces included. |
| `Text.SplitExcludes` | docs/components/bitty-2.0.0-rc1.full.js:385 | No piece of a split contains the separator. |
| `Text.JoinSplit` | docs/components/bitty-2.0.0-rc1.full.js:385 | Joining the pieces of a split with the separator gives back the original text, so no character is lost or added. |
| `Text.SplitJoin` | docs/components/bitty-2.0.0-rc1.full.js:385 | Splitting a join of separator-free pieces gives back exactly those pieces. |
| `Text.SplitNoSeparator` | docs/components/bitty-2.0.0-rc1.full.js:385 | Text without the separator splits into itself alone. |
| `Text.SplitConcat` | docs/components/bitty-2.0.0-rc1.full.js:385 | Splitting `a + sep + b` gives the pieces of `a` followed by the pieces of `b`. |
| `Text.SplitNames` | docs/components/bitty-2.0.0-rc1.full.js:168-170 | The one reader for `data-listeners`, `data-receive`, `data-connect` and `data-send`: (number of pipes) + 1 names, each trimmed and pipe-free, empty names kept. |
| `Text.SplitNamesConcat` | docs/components/bitty-2.0.0-rc1.full.js:349 | The names of `a\|b` are the names of `a` followed by the names of `b`. |
| `Text.SplitNamesJoin` | docs/components/bitty-2.0.0-rc1.full.js:328 | Pipe-joining trimmed, pipe-free names and reading them back gives the same names in the same order. |
| `Text.SplitNamesOne` | docs/components/bitty-2.0.0-rc1.full.js:349 | A pipe-free declaration is the single trimmed name. |
| `Text.SplitNamesPair` | docs/components/bitty-2.0.0-rc1.full.js:349 | A declaration with one pipe is the two trimmed names on either side of it. |
| `Text.SingleName` | docs/components/bitty-2.0.0-rc1.full.js:385 | A trimmed, pipe-free declaration names exactly itself. |
| `Text.Lines` | docs/components/bitty-2.0.0-rc1.full.js:238 | `split("\n").map(trim)`: one more line than there are newlines, each line trimmed. |
| `Text.LinesConcat` | docs/components/bitty-2.0.0-rc1.full.js:238 | The lines of `a + "\n" + b` are the lines of `a` followed by the lines of `b`. |
| `Text.LinesOne` | docs/components/bitty-2.0.0-rc1.full.js:238 | Text without a newline is the single line `trim(text)`. |
| `Replace.IndexOf` | docs/components/bitty-2.0.0-rc1.full.js:259 | StringIndexOf: the result is a match at or after the start, with no match between the start and it. No result means no match at all from the start on. |
| `Replace.Substitution` | docs/components/bitty-2.0.0-rc1.full.js:259 | GetSubstitution for a string pattern: a replacement string without `$` is inserted literally. |
| `Replace.SubstitutionExpands` | docs/components/bitty-2.0.0-rc1.full.js:259 | Any template read as pieces expands piece by piece against an independent reference: `$$` is one `$`, `$&` the match, `` $` `` the text before it, `$'` the text after it, and a `$` before any other character stays. |
| `Replace.SinglePatterns` | docs/components/bitty-2.0.0-rc1.full.js:259 | Each of the four `$` patterns alone, and a lone `$`, expands to its text at every match position. |
| `Replace.ReplaceOnce` | docs/components/bitty-2.0.0-rc1.full.js:259 | With a single match, `replaceAll` keeps the text around it and puts the template's expansion at that match in its place. |
| `Replace.ReplaceOnceAround` | docs/components/bitty-2.0.0-rc1.full.js:259 | With a single match, `` $` `` puts the text before the match in its place and `$'` the text after it. |
| `Replace.ReplaceWithMatch` | docs/components/bitty-2.0.0-rc1.full.js:259 | Replacing every match by `$&` gives the content back, for every pattern. |
| `Replace.ReplaceWithDollar` | docs/components/bitty-2.0.0-rc1.full.js:259 | For a non-empty pattern, `$$` and a lone `$` give the same result. |
| `Replace.ReplaceAllExpandsLeftmost` | docs/components/bitty-2.0.0-rc1.full.js:259 | For a non-empty pattern and a template that stands for one text at every match (`$`-free text, `$$`, `$`, `$&`), `replaceAll` is the leftmost non-overlapping replacement by that text. |
| `Replace.ReplaceAll` | docs/components/bitty-2.0.0-rc1.full.js:259 | Content that does not contain the pattern comes back unchanged. |
| `Replace.SelfReplace` | docs/components/bitty-2.0.0-rc1.full.js:259 | Replacing a `$`-free pattern by itself leaves any content unchanged, for empty and non-empty patterns alike. |
| `Replace.ReplaceAllIsLeftmost` | docs/components/bitty-2.0.0-rc1.full.js:259 | For a non-empty pattern and a `$`-free replacement, `replaceAll` equals an independent left-to-right, non-overlapping replacement. |
| `Replace.Interleave` | docs/components/bitty-2.0.0-rc1.full.js:259 | The reference result for an empty pattern has length \|s\| + (\|s\| + 1)·\|rep\|. |
| `Replace.EmptyPatternInterleaves` | docs/components/bitty-2.0.0-rc1.full.js:259 | With an empty pattern, `replaceAll` puts the replacement before every character (code point) and once at the end. |
| `Replace.ApplySubs` | docs/components/bitty-2.0.0-rc1.full.js:258-260 | The pairs are applied as `replaceAll` in list order. Pairs that replace a `$`-free text by itself leave the content unchanged. |
| `Replace.ApplySubsOne` | docs/components/bitty-2.0.0-rc1.full.js:258-260 | A single pair `[find, replace]` is exactly one `replaceAll(find, replace)`. |
| `Replace.ApplySubsSnoc` | docs/components/bitty-2.0.0-rc1.full.js:258-260 | The last pair is applied as `replaceAll` to the result of all the pairs before it, so the list is a left fold of `replaceAll`. |
| `Replace.ApplySubsAppend` | docs/components/bitty-2.0.0-rc1.full.js:429-432 | The substitution pairs are applied in list order: later pairs see the output of earlier ones. |
| `Replace.ApplySubsAbsent` | docs/components/bitty-2.0.0-rc1.full.js:258-260 | Pairs whose pattern never occurs leave the content unchanged. |
| `Ids.SetIds` | docs/components/bitty-2.0.0-rc1.full.js:417-423 | `setIds` keeps the number of descendants and draws exactly one id per descendant that lacked one. |
| `Ids.SetIdsStamps` | docs/components/bitty-2.0.0-rc1.full.js:417-423 | Each descendant with a truthy `uuid` is kept unchanged. The others get consecutive supply ids in document order, and only their `uuid` changes. |
| `Ids.SetIdsIdentifiesAll` | docs/components/bitty-2.0.0-rc1.full.js:418-421 | After `setIds` every descendant has a non-empty `uuid`. |
| `Ids.SetIdsNoop` | docs/components/bitty-2.0.0-rc1.full.js:419 | When every descendant already has an id, `setIds` changes nothing and draws nothing. |
| `Ids.SetIdsIdempotent` | docs/components/bitty-2.0.0-rc1.full.js:417-423 | A second `setIds` changes nothing, whatever state the supply is in. |
| `Ids.MissingGrows` | docs/components/bitty-2.0.0-rc1.full.js:419-420 | A later unidentified descendant is stamped from a strictly later supply index. |
| `Ids.SetIdsUnique` | docs/components/bitty-2.0.0-rc1.full.js:417-423 | With a supply that never repeats and never reuses an existing id, `setIds` keeps ids pairwise distinct and leaves every descendant identified. |
| `Ids.Match` | docs/components/bitty-2.0.0-rc1.full.js:368-378 | `match` throws exactly when the event has no target dataset. Otherwise the key defaults to `uuid`, the result is false when either side lacks the key, and otherwise it is string equality. |
| `Ids.MatchSymmetric` | docs/components/bitty-2.0.0-rc1.full.js:372-377 | `match` gives the same answer with the two datasets swapped. |
| `Ids.MatchIdentifies` | docs/components/bitty-2.0.0-rc1.full.js:368-378 | After `setIds` with a fresh supply, the default `match` holds between descendants `i` and `j` exactly when `i == j`. |
| `Receivers.Declared` | docs/components/bitty-2.0.0-rc1.full.js:327-328 | An element declares at least one name exactly when it carries `data-receive`. Every declared name is trimmed and pipe-free. |
| `Receivers.DeclaredJoin` | docs/components/bitty-2.0.0-rc1.full.js:327-328 | A `data-receive` value that is the pipe-join of plain names declares exactly those names, in order. |
| `Receivers.DeclaredPipeFree` | docs/components/bitty-2.0.0-rc1.full.js:327-328 | A `data-receive` value without a pipe declares its trimmed self once, so an empty value declares `""`. |
| `Receivers.Bind` | docs/components/bitty-2.0.0-rc1.full.js:200-209 | `addReceiver` over one element's names binds only declared names the controller has, all to that element, at most one binding per declaration. |
| `Receivers.BindMembership` | docs/components/bitty-2.0.0-rc1.full.js:200-209 | `(s, el)` is bound exactly when `s` is declared and the controller has `s`. |
| `Receivers.LoadReceivers` | docs/components/bitty-2.0.0-rc1.full.js:325-334 | Every binding names a current descendant. |
| `Receivers.LoadReceiversContents` | docs/components/bitty-2.0.0-rc1.full.js:325-334 | The table holds `(s, i)` if and only if descendant `i` carries `data-receive`, `s` is one of the trimmed names its value splits into at `\|`, and the controller has `s`. The table is rebuilt from the DOM alone. |
| `Receivers.LoadReceiversOrdered` | docs/components/bitty-2.0.0-rc1.full.js:327 | Bindings appear in document order of their elements. |
| `Receivers.LoadReceiversPerElement` | docs/components/bitty-2.0.0-rc1.full.js:328-332 | Within one element the bindings follow its declaration order, keeping the implemented names (a name declared twice is bound twice). |
| `Receivers.OfAppend` | docs/components/bitty-2.0.0-rc1.full.js:326-333 | Selecting one element's bindings distributes over concatenated tables. |
| `Dispatch.Deliver` | docs/components/bitty-2.0.0-rc1.full.js:386-397 | Every call for a signal carries that signal. |
| `Dispatch.ProcessSignals` | docs/components/bitty-2.0.0-rc1.full.js:384-399 | Every call is of a name the declaration lists, and of a name that is bound in the table or is a truthy property of the controller. |
| `Dispatch.ProcessSingle` | docs/components/bitty-2.0.0-rc1.full.js:384-399 | A pipe-free declaration dispatches just its trimmed name. |
| `Dispatch.DeliverAllAppend` | docs/components/bitty-2.0.0-rc1.full.js:385 | Names are dispatched one after another, independently of each other. |
| `Dispatch.ProcessSignalsConcat` | docs/components/bitty-2.0.0-rc1.full.js:384-399 | Sending `a\|b` is sending `a` then sending `b`. |
| `Dispatch.BoundToAppend` | docs/components/bitty-2.0.0-rc1.full.js:387-392 | The receivers bound to a signal in a concatenated table are those of each part, in order. |
| `Dispatch.BoundToBind` | docs/components/bitty-2.0.0-rc1.full.js:200-209 | One element's bindings for a signal are the element repeated once per declaration, or none when the controller lacks it. |
| `Dispatch.DeclaringMembership` | docs/components/bitty-2.0.0-rc1.full.js:327-328 | The reference list of declaring descendants holds `i` exactly when descendant `i` carries `data-receive` and the signal is one of the trimmed names its value splits into. |
| `Dispatch.LoadedTargets` | docs/components/bitty-2.0.0-rc1.full.js:325-334 | Against the loaded table, a signal the controller has reaches exactly the descendants declaring it, in document order. A signal it lacks reaches none. |
| `Dispatch.DispatchAfterLoad` | docs/components/bitty-2.0.0-rc1.full.js:384-399 | In terms of the DOM: no call when the controller lacks the method; one `null`-element call when no descendant declares it; otherwise one call per declaring descendant in document order. |
| `Dispatch.HandleEvent` | docs/components/bitty-2.0.0-rc1.full.js:285-294 | A truthy `forward` is dispatched and deleted. Otherwise `send` is dispatched and the event is untouched. No other key changes. It fails exactly when there is no dataset, or neither a truthy `forward` nor a `send`. |
| `Dispatch.HandleSend` | docs/components/bitty-2.0.0-rc1.full.js:290-293 | Without a truthy `forward`, handling dispatches `send` and returns the event unchanged. |
| `Dispatch.ForwardEvent` | docs/components/bitty-2.0.0-rc1.full.js:270-277 | A null event, or one without a target dataset, becomes the synthetic `bittyforward` event. Otherwise the event's own dataset gets `forward` set. |
| `Dispatch.Forward` | docs/components/bitty-2.0.0-rc1.full.js:270-279 | A non-empty signal is dispatched exactly, the target ends without `forward`, and its other keys are untouched. |
| `Dispatch.ForwardEmpty` | docs/components/bitty-2.0.0-rc1.full.js:270-279 | `forward(e, "")` leaves `forward: ""` and dispatches the target's `send`. It fails when there is no `send`, as with every synthetic event. |
| `Dispatch.ForwardConsumed` | docs/components/bitty-2.0.0-rc1.full.js:287-289 | The override is one-shot: handling the same event again dispatches its `send`, or fails when it has none. |
| `Bridge.Listeners` | docs/components/bitty-2.0.0-rc1.full.js:166-171 | The listener types are `click` and `input` unless `data-listeners` is truthy, in which case its split names replace them. The list is never empty. |
| `Bridge.EmptyListenersKeepDefaults` | docs/components/bitty-2.0.0-rc1.full.js:167 | `data-listeners=""` keeps the defaults. |
| `Bridge.Qualifies` | docs/components/bitty-2.0.0-rc1.full.js:174-178 | An event qualifies exactly when it has a target that is not a bitty element (in any letter case) and whose dataset has a truthy `send`. A target with only `forward` never qualifies. |
| `Bridge.QualifiedHandles` | docs/components/bitty-2.0.0-rc1.full.js:174-180 | `handleEvent` never throws on an event the filter lets through. |
| `Bridge.Bridge` | docs/components/bitty-2.0.0-rc1.full.js:172-183 | An event that fails the filter, or whose type has no listener, dispatches nothing and is untouched. |
| `Bridge.BridgeRepeats` | docs/components/bitty-2.0.0-rc1.full.js:172-183 | A qualifying event without `forward` dispatches its `send` once per installed listener of its type. A type listed twice dispatches twice. |
| `Bridge.FiresOnce` | docs/components/bitty-2.0.0-rc1.full.js:174-180 | A matching listener dispatches `send` ahead of the listeners after it. |
| `Bridge.BridgeFires` | docs/components/bitty-2.0.0-rc1.full.js:174-180 | A listener of the event's type hands a qualifying event to `handleEvent` and then passes it on. |
| `Bridge.BridgeSkip` | docs/components/bitty-2.0.0-rc1.full.js:173 | A listener of another type lets the event pass untouched. |
| `Bridge.BridgeForwardFirst` | docs/components/bitty-2.0.0-rc1.full.js:172-183 | With a truthy `forward` on a qualifying target, the first matching listener dispatches and consumes the forward, and every later one dispatches `send`. |
| `Bridge.Document` | docs/components/bitty-2.0.0-rc1.full.js:172-183 | With the listeners of several hosts on the document, an event that fails the filter, or that no host listens for, dispatches nothing and is untouched. |
| `Bridge.EveryHostDispatches` | docs/components/bitty-2.0.0-rc1.full.js:172-183 | With several hosts on a page, each dispatches a qualifying event against its own table, host after host, matching an independent per-host reference trace. |
| `Connection.Instantiate` | docs/components/bitty-2.0.0-rc1.full.js:353 | `new v()` succeeds exactly for a class, giving its methods. |
| `Connection.MakeConnection` | docs/components/bitty-2.0.0-rc1.full.js:340-366 | Without a truthy `data-connect`, it succeeds exactly when `BittyClass` is a class, and then has that class's methods. Otherwise a global named by the first trimmed segment is instantiated. Failing that, it succeeds exactly when the module loads and the export named by the second segment (the default export when there is none) is a class. Every failure is an error, not a controller. |
| `Connection.GlobalIgnoresSecondSegment` | docs/components/bitty-2.0.0-rc1.full.js:349-353 | When the first segment names a global, whatever follows the first pipe is irrelevant. |
| `Connection.GlobalBeforeModule` | docs/components/bitty-2.0.0-rc1.full.js:350-355 | A global wins over a module of the same name. |
| `Connection.NamedExport` | docs/components/bitty-2.0.0-rc1.full.js:355-359 | `"path\|Name"` instantiates the export `Name`, trimmed. |
| `Connection.DefaultExport` | docs/components/bitty-2.0.0-rc1.full.js:355-357 | A bare `"path"` instantiates the default export. |
| `Fetch.UseTemplate` | docs/components/bitty-2.0.0-rc1.full.js:429-432 | The markup is the content with the pairs applied in order as `replaceAll`. With no pairs, or none whose pattern occurs in the content, it is the content unchanged. |
| `Fetch.NatToString` | docs/components/bitty-2.0.0-rc1.full.js:255 | A status code renders as decimal digits, without a leading zero, that read back as the code under an independent decimal reading. |
| `Fetch.ErrorLine` | docs/components/bitty-2.0.0-rc1.full.js:254-264 | The logged line starts with the catch prefix, then the URL. It ends with the URL, and it carries the status in decimal after `Error: `. |
| `Fetch.FetchTxt` | docs/components/bitty-2.0.0-rc1.full.js:251-267 | An ok response yields its body with the substitutions applied and logs nothing. A non-ok one yields `undefined` and logs exactly the error line for its URL and status. A rejected `fetch` escapes and logs nothing. |
| `Fetch.FetchTemplate` | docs/components/bitty-2.0.0-rc1.full.js:247-249 | Same outcome and log as `fetchTxt`: the substituted body, or `undefined` with the error line, or an escaping rejection. |
| `Fetch.FetchLines` | docs/components/bitty-2.0.0-rc1.full.js:236-239 | It logs what `fetchTxt` logs. It succeeds exactly on an ok response, giving the trimmed lines of the substituted body. |
| `Fetch.LinesRoundTrip` | docs/components/bitty-2.0.0-rc1.full.js:238 | For text whose lines carry no surrounding whitespace, joining the lines gives the text back. |
| `Lifecycle.RunSendFromComponent` | docs/components/bitty-2.0.0-rc1.full.js:405-411 | Without a truthy `data-send` nothing happens. Otherwise the host dispatches its `send`, or its own truthy `forward`, which is then removed from the host. |
| `Lifecycle.WithApi` | docs/components/bitty-2.0.0-rc1.full.js:151 | After `this.conn.api = this`, `api` is a truthy property that is not a function. Every other property is as the class defined it. |
| `Lifecycle.Start` | docs/components/bitty-2.0.0-rc1.full.js:150-159 | After resolution: the host is stored on the controller as `api`, the table is loaded from the descendants against that controller, observing starts, and the configured listeners are installed. `bittyInit()` is the first call exactly when it is a function on the controller. Every later call is a handler. |
| `Lifecycle.ApiBound` | docs/components/bitty-2.0.0-rc1.full.js:151-154 | Every descendant declaring `api` gets a binding to the host's own `api` property, whatever the class defines. |
| `Lifecycle.Connect` | docs/components/bitty-2.0.0-rc1.full.js:144-160 | The host gets the next supply id as `uuid`, and descendants get ids. On a failed resolution nothing else happens. Otherwise the host is started with the resolved controller, which then carries `api`. |
| `Lifecycle.ConnectStarts` | docs/components/bitty-2.0.0-rc1.full.js:144-159 | A successful connection is `Start` on the stamped host and its identified descendants. |
| `Lifecycle.ConnectWithoutSend` | docs/components/bitty-2.0.0-rc1.full.js:157-158 | Without `data-send`, connecting calls only `bittyInit()`, and only when it is a function. |
| `Lifecycle.ConnectSends` | docs/components/bitty-2.0.0-rc1.full.js:154-158 | With `data-send`, `bittyInit()` comes first when it is a function, then the declared signals are dispatched against the freshly loaded table. |
| `Lifecycle.ConnectForwards` | docs/components/bitty-2.0.0-rc1.full.js:154-158 | A host's own truthy `data-forward` replaces its `data-send` on connection and is consumed. |
| `Lifecycle.OnlyConnectMatters` | docs/components/bitty-2.0.0-rc1.full.js:145-149 | Stamping the host's `uuid` first changes neither the resolution nor the listener configuration. |
| `Lifecycle.Refresh` | docs/components/bitty-2.0.0-rc1.full.js:306-307 | A refresh runs `setIds` on the host's own descendants, so the subtree and the supply position are those `setIds` gives. The table is then exactly a fresh scan of that subtree. Dataset, controller and listeners are kept. |
| `Lifecycle.HandleMutations` | docs/components/bitty-2.0.0-rc1.full.js:300-311 | A batch changes only the descendants, the supply position and the table. A host that is not observing is left unchanged. |
| `Lifecycle.RefreshIdempotent` | docs/components/bitty-2.0.0-rc1.full.js:306-307 | A second refresh changes nothing. |
| `Lifecycle.MutationsRefreshOnce` | docs/components/bitty-2.0.0-rc1.full.js:300-311 | A batch leaves the host as one refresh would when it holds a child-list record that added or removed nodes. Otherwise the host is unchanged. |
| `Lifecycle.AfterRefresh` | docs/components/bitty-2.0.0-rc1.full.js:301-310 | Once refreshed, further records keep the host where it is. |
| `Lifecycle.MutationsKeepTableCurrent` | docs/components/bitty-2.0.0-rc1.full.js:300-311 | After a structural batch the host's own subtree has gone through `setIds` once. Every descendant is identified and the table matches that subtree. |
| `Scenarios.ThreeNames` | docs/components/bitty-2.0.0-rc1.full.js:328 | `"a\|b\|c"` declares `a`, `b`, `c` in order. |
| `Scenarios.EmptySegmentsKept` | docs/components/bitty-2.0.0-rc1.full.js:385 | `"a\|\|b"` declares `a`, `""`, `b`, and `""` declares one empty name. |
| `Scenarios.SplitTrims` | docs/components/bitty-2.0.0-rc1.full.js:385 | `" a "` declares `a`. |
| `Scenarios.ConnectThenForward` | docs/components/bitty-2.0.0-rc1.full.js:144-160 | A host connected to a global class, holding one receiving span, makes no call on connect. `forward(null, sig)` then calls `sig` once with the span. The name is any plain name other than `bittyInit` and `api`. |
| `Scenarios.SendOnConnect` | docs/components/bitty-2.0.0-rc1.full.js:405-411 | A host with `data-send` and a `BittyClass` that has the method calls it exactly once, with a `null` element, when it connects. |
| `Scenarios.OneReceiver` | docs/components/bitty-2.0.0-rc1.full.js:325-334 | One descendant declaring a method the controller has gives a one-entry table. |

## Left out

- Custom-element registration, `setProp`, `loadCSS` and style sheets, `fetchHTML`, `fetchSVG` and `fetchJSON`: these are DOM and parser APIs outside the routing core. Templates are modelled only as the string after substitution.
- The network: a fetch is given as its `Response`, and `fetch` options are not modelled.
- Substitution pairs hold a string pattern and a string replacement. A `RegExp` pattern or a replacer function in a pair would change what `replaceAll` does, and the model does not cover them.
- Scheduling is not modelled: `async`/`await` ordering, the `AsyncFunction` check in `callBittyInit`, and when a `MutationObserver` delivers records. `Lifecycle.HandleMutations` takes the subtree as it is when the callback runs.
- `crypto.randomUUID` is the `supply` parameter. Freshness is a hypothesis of the lemmas that need it (`Ids.FreshFor`).
- The per-event `uuid` stamped by the bridge and by `runSendFromComponent` is not modelled. It draws a random value and no routing decision reads it.
- Handler bodies are not modelled: a trace records which method is called with which element. Effects a handler has on the DOM, the table or the event (for example, re-setting `forward`) are outside the model.
- The controller's properties are fixed when the class is constructed. The code reads `this.conn[name]` live: when binding, in the fallback of `processSignals`, and in `callBittyInit`. Properties that `bittyInit()` or a handler adds to the controller, or removes from it, are seen by later binding and fallback in the code but not in the model.
- Exceptions thrown by controller calls are not modelled: every trace assumes each call returns. In the code, a throwing call aborts the rest of its `processSignals`, so later receivers and later signals of that dispatch are skipped. A call of a truthy property that is not a function throws in the same way, and `api` is one once the host is connected. A throwing or rejecting `bittyInit()` skips `runSendFromComponent`. The model's trace lists every call the dispatch would make if each one returned.
- Shared DOM state between events is not modelled. When `handleEvent` deletes the `forward` of a descendant, the code changes the element itself, so later events on that element no longer see it. The model changes only the returned copy of the event and does not write it back into the host's descendants. Within one event the change is threaded through every listener and host.
- `this.url` and `this.metadata` are not modelled: nothing in the routing reads them. The bound callbacks are modelled by what they call: `handleEventBridge` (`handleEvent.bind(this)`) is the call `Bridge.Bridge` makes, and `watchMutations` (`handleMutations.bind(this)`) is `Lifecycle.HandleMutations`. `this.conn.api` is modelled by `Lifecycle.WithApi`.
- The `console.error` lines of `makeConnection` are not modelled: a failed connection is the `Err` of `Connection.MakeConnection`, and the text it would log is left out. Only the log line of `fetchTxt` is modelled.
- Strings are sequences of Unicode code points, while JavaScript strings are sequences of UTF-16 code units. A lone surrogate cannot be written in the model. `trim`, `split` and the search for a non-empty pattern agree with the code on well-formed text, because every character they compare against is in the Basic Multilingual Plane and UTF-16 matching never starts inside a surrogate pair.
- `Replace.ReplaceWithDollar`: is stated for non-empty patterns only. With the empty pattern both templates still insert one `$` at every position, but the model does not prove it.
- `Replace.SubstitutionExpands`: covers every template except one that ends in a lone `$`. That `$` stays as written, as `Replace.SinglePatterns` shows for the template `$` alone.
- `Replace.EmptyPatternInterleaves`: states the result for code points. For text with a character outside the Basic Multilingual Plane, JavaScript puts the replacement between the two halves of its surrogate pair as well, so the code's result has more insertions than the model's.
- Dataset lookups do not see keys inherited through the prototype chain.
- Reconnecting the same host adds another set of document listeners. The model connects each host once; `Bridge.Document` covers several hosts.
- `Bridge.AsciiLower`: models `toLowerCase` for ASCII letters only. The filter only compares the lower-cased node name with `bitty-2-0`, and that comparison comes out the same. The only characters outside ASCII whose lower case contains an ASCII character are the Kelvin sign, which becomes `k` (not in the tag), and `İ`, which becomes `i` followed by a combining dot (not in the tag).
- `Ids.Match`: does not model an `el` without a `dataset`, which would throw. Every element in the model carries a dataset.
- The demo controllers in `content/_includes/script.js`, `docs/components/page.js` and `content/components/page.js` (audio, canvas and waveform code) are not part of this model.

=== FILE: base.dfy ===
/** Failure-carrying wrappers shared by the whole model: JavaScript's
    `undefined`/`null` becomes `None`, a thrown exception becomes `Err`. */
module Base {

  datatype Option<+T> = None | Some(value: T)

  datatype Result<+T, +E> = Ok(value: T) | Err(error: E)

  /** Number of occurrences of `x` in `s`. */
  function Occurrences<T(==)>(s: seq<T>, x: T): (r: nat)
  {
    if |s| == 0 then 0
    else (if s[0] == x then 1 else 0) + Occurrences(s[1..], x)
  }

  lemma {:induction false} OccurrencesAppend<T>(a: seq<T>, b: seq<T>, x: T)
    ensures Occurrences(a + b, x) == Occurrences(a, x) + Occurrences(b, x)
  {
    if |a| == 0 {
      assert a + b == b;
    } else {
      assert (a + b)[1..] == a[1..] + b;
      OccurrencesAppend(a[1..], b, x);
    }
  }

  lemma {:induction false} OccurrencesPositive<T>(s: seq<T>, x: T)
    ensures Occurrences(s, x) > 0 <==> x in s
  {
    if |s| > 0 {
      OccurrencesPositive(s[1..], x);
      assert s == [s[0]] + s[1..];
    }
  }

  /** Regrouping a concatenation; stated once so that proofs can cite it
      instead of leaving the solver to rediscover it. */
  lemma ConcatAssoc<T>(a: seq<T>, b: seq<T>, c: seq<T>)
    ensures a + b + c == a + (b + c)
  {
  }
}

=== FILE: bridge.dfy ===
/** The event bridge installed by `addEventListeners`: the listener types
    a host uses and the filter each document-level listener applies
    before handing the event to `handleEvent`. */
module Bridge {
  import opened Base
  import opened Text
  import opened Dom
  import opened Receivers
  import opened Dispatch

  const DefaultListeners: seq<string> := ["click", "input"]

  /** Listener types: the defaults unless `data-listeners` is truthy, in
      which case its split names replace them. */
  function Listeners(host: Dataset): (r: seq<string>)
    ensures !Truthy(host, "listeners") ==> r == DefaultListeners
    ensures Truthy(host, "listeners") ==> r == SplitNames(host["listeners"])
    ensures |r| > 0
  {
    if Truthy(host, "listeners") then SplitNames(host["listeners"]) else DefaultListeners
  }

  /** An empty `data-listeners` keeps the default listeners. */
  lemma EmptyListenersKeepDefaults(host: Dataset)
    requires "listeners" in host && host["listeners"] == ""
    ensures Listeners(host) == ["click", "input"]
  {
  }

  function AsciiLower(s: string): (r: string)
    ensures |r| == |s|
    ensures forall k :: 0 <= k < |s| ==> r[k] == (if 'A' <= s[k] <= 'Z' then (s[k] as int + 32) as char else s[k])
  {
    seq(|s|, k requires 0 <= k < |s| => if 'A' <= s[k] <= 'Z' then (s[k] as int + 32) as char else s[k])
  }

  /** The listener's test: a target exists, is not a bitty element, and
      has a truthy `data-send`. `data-forward` alone does not qualify, and
      a bitty element never does, in whatever letter case its node name
      is written. */
  function Qualifies(e: Event): (r: bool)
    ensures r ==> DatasetOf(e).Some? && Truthy(DatasetOf(e).value, "send")
    ensures DatasetOf(e).Some? && !Truthy(DatasetOf(e).value, "send") ==> !r
    ensures e.target.Some? && AsciiLower(e.target.value.nodeName) == TagName ==> !r
    ensures && e.target.Some?
            && AsciiLower(e.target.value.nodeName) != TagName
            && DatasetOf(e).Some?
            && Truthy(DatasetOf(e).value, "send")
            ==> r
  {
    && e.target.Some?
    && AsciiLower(e.target.value.nodeName) != TagName
    && e.target.value.dataset.Some?
    && Truthy(e.target.value.dataset.value, "send")
  }

  /** The filter only lets through events `handleEvent` can take: a
      qualifying event is dispatched without a TypeError, from its
      `forward` when that is truthy and from its `send` otherwise. */
  lemma QualifiedHandles(e: Event, table: seq<Receiver>, ctrl: Controller)
    requires Qualifies(e)
    ensures HandleEvent(e, table, ctrl).Ok?
  {
  }

  /** One event reaching the document-level listeners a host installed,
      in installation order: each listener for the event's type whose
      filter passes runs `handleEvent` on the event as the previous one
      left it. */
  function Bridge(listeners: seq<string>, e: Event, table: seq<Receiver>, ctrl: Controller): (r: Handled)
    ensures !Qualifies(e) ==> r == Handled(e, [])
    ensures e.kind !in listeners ==> r == Handled(e, [])
  {
    if |listeners| == 0 then Handled(e, [])
    else if listeners[0] == e.kind && Qualifies(e) then
      var h := HandleEvent(e, table, ctrl);
      if h.Ok? then
        var rest := Bridge(listeners[1..], h.value.event, table, ctrl);
        Handled(rest.event, h.value.trace + rest.trace)
      else Handled(e, [])
    else Bridge(listeners[1..], e, table, ctrl)
  }

  /** A qualifying event with no `forward` is dispatched from its `send`
      once per installed listener of its type: a type listed twice in
      `data-listeners` dispatches the event twice. */
  lemma {:induction false} BridgeRepeats(listeners: seq<string>, e: Event, table: seq<Receiver>, ctrl: Controller)
    requires Qualifies(e) && !Truthy(e.target.value.dataset.value, "forward")
    ensures Bridge(listeners, e, table, ctrl).event == e
    ensures Bridge(listeners, e, table, ctrl).trace
            == Concat(Occurrences(listeners, e.kind), ProcessSignals(table, ctrl, e.target.value.dataset.value["send"]))
  {
    if |listeners| > 0 {
      var t := ProcessSignals(table, ctrl, e.target.value.dataset.value["send"]);
      var n := Occurrences(listeners[1..], e.kind);
      var rest := Bridge(listeners[1..], e, table, ctrl);
      assert rest.event == e && rest.trace == Concat(n, t) by {
        BridgeRepeats(listeners[1..], e, table, ctrl);
      }
      var total := Concat(Occurrences(listeners, e.kind), t);
      if listeners[0] == e.kind {
        assert Bridge(listeners, e, table, ctrl) == Handled(e, total) by {
          FiresOnce(listeners, e, table, ctrl, t, n);
          assert Occurrences(listeners, e.kind) == n + 1;
          assert Concat(n + 1, t) == t + Concat(n, t);
        }
      } else {
        assert Bridge(listeners, e, table, ctrl) == Handled(e, total) by {
          BridgeSkip(listeners, e, table, ctrl);
          assert Occurrences(listeners, e.kind) == n;
        }
      }
    }
  }

  /** A listener of the event's type hands a qualifying event without
      `forward` to `handleEvent`, which dispatches its `send` and leaves
      the event as it was. */
  lemma BridgeFires(listeners: seq<string>, e: Event, table: seq<Receiver>, ctrl: Controller)
    requires Qualifies(e) && !Truthy(e.target.value.dataset.value, "forward")
    requires |listeners| > 0 && listeners[0] == e.kind
    ensures var rest := Bridge(listeners[1..], e, table, ctrl);
            Bridge(listeners, e, table, ctrl)
            == Handled(rest.event, ProcessSignals(table, ctrl, e.target.value.dataset.value["send"]) + rest.trace)
  {
    HandleSend(e, table, ctrl);
  }

  lemma FiresOnce(listeners: seq<string>, e: Event, table: seq<Receiver>, ctrl: Controller, t: seq<Invocation>, n: nat)
    requires Qualifies(e) && !Truthy(e.target.value.dataset.value, "forward")
    requires |listeners| > 0 && listeners[0] == e.kind
    requires t == ProcessSignals(table, ctrl, e.target.value.dataset.value["send"])
    requires Bridge(listeners[1..], e, table, ctrl) == Handled(e, Concat(n, t))
    ensures Bridge(listeners, e, table, ctrl) == Handled(e, t + Concat(n, t))
  {
    BridgeFires(listeners, e, table, ctrl);
  }

  /** A listener of another type lets the event pass untouched. */
  lemma BridgeSkip(listeners: seq<string>, e: Event, table: seq<Receiver>, ctrl: Controller)
    requires |listeners| > 0 && listeners[0] != e.kind
    ensures Bridge(listeners, e, table, ctrl) == Bridge(listeners[1..], e, table, ctrl)
  {
  }

  /** `k` copies of `t` back to back. */
  function Concat<T>(k: nat, t: seq<T>): (r: seq<T>)
  {
    if k == 0 then [] else t + Concat(k - 1, t)
  }

  /** A qualifying event whose target also carries a truthy `forward`:
      the first matching listener dispatches the forward and consumes it;
      any later one dispatches `send`. */
  lemma BridgeForwardFirst(listeners: seq<string>, e: Event, table: seq<Receiver>, ctrl: Controller)
    requires Qualifies(e) && Truthy(e.target.value.dataset.value, "forward")
    requires |listeners| > 0 && listeners[0] == e.kind
    ensures var d := e.target.value.dataset.value;
            var r := Bridge(listeners, e, table, ctrl);
            && DatasetOf(r.event).Some?
            && "forward" !in DatasetOf(r.event).value
            && r.trace == ProcessSignals(table, ctrl, d["forward"])
                          + Concat(Occurrences(listeners[1..], e.kind), ProcessSignals(table, ctrl, d["send"]))
  {
    var d := e.target.value.dataset.value;
    var h := HandleEvent(e, table, ctrl).value;
    var d' := DatasetOf(h.event).value;
    assert d' == d - {"forward"};
    assert d'["send"] == d["send"];
    BridgeRepeats(listeners[1..], h.event, table, ctrl);
  }

  /** The listeners one connected host installed on the document, with
      the table and controller its bridge dispatches against. */
  datatype Installed = Installed(listeners: seq<string>, table: seq<Receiver>, ctrl: Controller)

  /** One event reaching the document: every host registers its own
      listeners, so they run host after host in installation order, each
      dispatching against its own host's table, on the event as the
      previous ones left it. */
  function Document(hosts: seq<Installed>, e: Event): (r: Handled)
    ensures !Qualifies(e) ==> r == Handled(e, [])
    ensures (forall k :: 0 <= k < |hosts| ==> e.kind !in hosts[k].listeners) ==> r == Handled(e, [])
  {
    if |hosts| == 0 then Handled(e, [])
    else
      var first := Bridge(hosts[0].listeners, e, hosts[0].table, hosts[0].ctrl);
      var rest := Document(hosts[1..], first.event);
      Handled(rest.event, first.trace + rest.trace)
  }

  /** Reference trace of a qualifying event without `forward`: each host,
      in order, dispatches the target's `send` once per listener of the
      event's type that it installed. */
  function EachHost(hosts: seq<Installed>, e: Event): (r: seq<Invocation>)
    requires Qualifies(e)
  {
    if |hosts| == 0 then []
    else
      var send := e.target.value.dataset.value["send"];
      Concat(Occurrences(hosts[0].listeners, e.kind), ProcessSignals(hosts[0].table, hosts[0].ctrl, send))
      + EachHost(hosts[1..], e)
  }

  /** Every connected host sees every qualifying event: the page's trace
      is each host's own dispatch of `send`, host after host, and the
      event is left as it was. */
  lemma {:induction false} EveryHostDispatches(hosts: seq<Installed>, e: Event)
    requires Qualifies(e) && !Truthy(e.target.value.dataset.value, "forward")
    ensures Document(hosts, e) == Handled(e, EachHost(hosts, e))
  {
    if |hosts| > 0 {
      BridgeRepeats(hosts[0].listeners, e, hosts[0].table, hosts[0].ctrl);
      EveryHostDispatches(hosts[1..], e);
    }
  }
}

=== FILE: connection.dfy ===
/** Controller resolution (`makeConnection`) as a pure function of the
    host's dataset and an environment: the globals visible on `window`
    and the modules a dynamic `import` can load. */
module Connection {
  import opened Base
  import opened Text
  import opened Dom

  /** A value found on `window` or exported by a module: a class whose
      instances have the truthy properties `methods` and the
      function-valued properties `functions`, a class whose constructor
      throws, or any other value (`new` on it throws a TypeError);
      `truthy` is its JavaScript truthiness. */
  datatype Value = Class(methods: set<string>, functions: set<string>) | ThrowingClass | Plain(truthy: bool)

  /** `window` holds the defined globals (an absent key is `undefined`);
      `modules` maps an import specifier to its exports, the default
      export under "default"; a specifier that is absent fails to load. */
  datatype Env = Env(window: map<string, Value>, modules: map<string, map<string, Value>>)

  /** Why no controller was connected; every case is caught and logged
      by `makeConnection`. */
  datatype ConnError = NoClassToConnect | ConstructorFailed | ImportFailed

  function IsTruthy(v: Value): (r: bool)
  {
    v.Class? || v.ThrowingClass? || (v.Plain? && v.truthy)
  }

  /** `new v()`. */
  function Instantiate(v: Value): (r: Result<Controller, ConnError>)
    ensures r.Ok? <==> v.Class?
    ensures r.Ok? ==> r.value.methods == v.methods && r.value.functions == v.functions
  {
    match v
    case Class(m, f) => Ok(Controller(m, f))
    case _ => Err(ConstructorFailed)
  }

  /** The segments of `data-connect`, split on '|' and trimmed. */
  function ConnectParts(host: Dataset): (r: seq<string>)
    requires "connect" in host
  {
    SplitNames(host["connect"])
  }

  function MakeConnection(host: Dataset, env: Env): (r: Result<Controller, ConnError>)
    ensures !Truthy(host, "connect") ==>
              (r.Ok? <==> "BittyClass" in env.window && env.window["BittyClass"].Class?)
    ensures !Truthy(host, "connect") && r.Ok? ==>
              r.value.methods == env.window["BittyClass"].methods
              && r.value.functions == env.window["BittyClass"].functions
    ensures Truthy(host, "connect") && ConnectParts(host)[0] in env.window ==>
              r == Instantiate(env.window[ConnectParts(host)[0]])
    ensures Truthy(host, "connect") && ConnectParts(host)[0] !in env.window ==>
              var parts := ConnectParts(host);
              var exportName := if |parts| == 1 then "default" else parts[1];
              (r.Ok? <==> parts[0] in env.modules && exportName in env.modules[parts[0]]
                          && env.modules[parts[0]][exportName].Class?)
  {
    if !Truthy(host, "connect") then
      if "BittyClass" in env.window && IsTruthy(env.window["BittyClass"]) then
        Instantiate(env.window["BittyClass"])
      else Err(NoClassToConnect)
    else
      var parts := ConnectParts(host);
      if parts[0] in env.window then Instantiate(env.window[parts[0]])
      else if parts[0] !in env.modules then Err(ImportFailed)
      else
        var mod := env.modules[parts[0]];
        var exportName := if |parts| == 1 then "default" else parts[1];
        if exportName in mod then Instantiate(mod[exportName]) else Err(ConstructorFailed)
  }

  /** A `data-connect` whose first segment names a global uses that
      global, whatever follows the first '|'. */
  lemma GlobalIgnoresSecondSegment(host: Dataset, env: Env, first: string, rest: string, rest': string)
    requires '|' !in first && Trim(first) in env.window
    ensures MakeConnection(host["connect" := first + "|" + rest], env)
            == MakeConnection(host["connect" := first + "|" + rest'], env)
            == Instantiate(env.window[Trim(first)])
  {
    GlobalFirst(host, env, first, rest);
    GlobalFirst(host, env, first, rest');
  }

  lemma GlobalFirst(host: Dataset, env: Env, first: string, rest: string)
    requires '|' !in first && Trim(first) in env.window
    ensures MakeConnection(host["connect" := first + "|" + rest], env) == Instantiate(env.window[Trim(first)])
  {
    var h := host["connect" := first + "|" + rest];
    assert ConnectParts(h)[0] == Trim(first) by {
      SplitNamesConcat(first, rest);
      SplitNamesOne(first);
    }
    assert Truthy(h, "connect") by {
      assert h["connect"][|first|] == '|';
    }
  }


  /** A global of the same name wins over a module of that name. */
  lemma GlobalBeforeModule(host: Dataset, env: Env)
    requires Truthy(host, "connect")
    requires ConnectParts(host)[0] in env.window && ConnectParts(host)[0] in env.modules
    ensures MakeConnection(host, env) == Instantiate(env.window[ConnectParts(host)[0]])
  {
  }

  /** For a module path, "path|Name" takes the export `Name`... */
  lemma NamedExport(host: Dataset, env: Env, path: string, name: string)
    requires '|' !in path && '|' !in name
    requires Trim(path) !in env.window && Trim(path) in env.modules
    ensures var mod := env.modules[Trim(path)];
            MakeConnection(host["connect" := path + "|" + name], env)
            == if Trim(name) in mod then Instantiate(mod[Trim(name)]) else Err(ConstructorFailed)
  {
    var h := host["connect" := path + "|" + name];
    assert ConnectParts(h) == [Trim(path), Trim(name)] by {
      SplitNamesPair(path, name);
    }
    assert Truthy(h, "connect") by {
      assert h["connect"][|path|] == '|';
    }
  }

  /** ... and a bare "path" the default export. */
  lemma DefaultExport(host: Dataset, env: Env, path: string)
    requires '|' !in path && path != ""
    requires Trim(path) !in env.window && Trim(path) in env.modules
    ensures var mod := env.modules[Trim(path)];
            MakeConnection(host["connect" := path], env)
            == if "default" in mod then Instantiate(mod["default"]) else Err(ConstructorFailed)
  {
    assert ConnectParts(host["connect" := path]) == [Trim(path)] by {
      SplitNamesOne(path);
    }
  }
}

=== FILE: dispatch.dfy ===
/** Signal dispatch: `processSignals`, `handleEvent` and `forward`.
    Dispatch is a pure function returning the calls it makes, in order:
    `conn[signal](event, el)` for each bound receiver, or
    `conn[signal](event, null)` as the fallback. */
module Dispatch {
  import opened Base
  import opened Text
  import opened Dom
  import opened Receivers

  /** One controller call: the signal and the receiver element, `None`
      for the `null` of the fallback. */
  datatype Invocation = Invocation(signal: string, el: Option<nat>)

  /** The event's target: a DOM node, or the plain object of a synthetic
      event (whose `nodeName` the model leaves as ""). `dataset` is
      `None` when the target has none. */
  datatype Target = Target(nodeName: string, dataset: Option<Dataset>)

  datatype Event = Event(kind: string, target: Option<Target>)

  /** `handleEvent` reads a property of an undefined value. */
  datatype DispatchError = TypeError

  /** Elements bound to `signal`, in table order. */
  function BoundTo(table: seq<Receiver>, signal: string): (r: seq<nat>)
    ensures |r| <= |table|
  {
    if |table| == 0 then []
    else (if table[0].key == signal then [table[0].el] else []) + BoundTo(table[1..], signal)
  }

  /** The calls for one signal: every bound receiver in table order, else
      the controller method once with a null element, else nothing. */
  function Deliver(table: seq<Receiver>, ctrl: Controller, signal: string): (r: seq<Invocation>)
    ensures forall k :: 0 <= k < |r| ==> r[k].signal == signal
    ensures |r| > 0 ==> signal in ctrl.methods || |BoundTo(table, signal)| > 0
  {
    var bound := BoundTo(table, signal);
    if |bound| > 0 then CallsTo(signal, bound)
    else if signal in ctrl.methods then [Invocation(signal, None)]
    else []
  }

  /** One call of `signal` per element, in order. */
  function CallsTo(signal: string, els: seq<nat>): (r: seq<Invocation>)
    ensures |r| == |els|
    ensures forall k :: 0 <= k < |r| ==> r[k] == Invocation(signal, Some(els[k]))
  {
    if |els| == 0 then [] else [Invocation(signal, Some(els[0]))] + CallsTo(signal, els[1..])
  }

  function DeliverAll(table: seq<Receiver>, ctrl: Controller, names: seq<string>): (r: seq<Invocation>)
    ensures forall k :: 0 <= k < |r| ==> r[k].signal in names
    ensures forall k :: 0 <= k < |r| ==> r[k].signal in ctrl.methods || |BoundTo(table, r[k].signal)| > 0
  {
    if |names| == 0 then []
    else Deliver(table, ctrl, names[0]) + DeliverAll(table, ctrl, names[1..])
  }

  /** `processSignals(event, signals)`: each declared name in order,
      independently. Every call is of a declared name, and no call
      happens for a name that has neither a binding nor a truthy
      property on the controller. */
  function ProcessSignals(table: seq<Receiver>, ctrl: Controller, signals: string): (r: seq<Invocation>)
    ensures forall k :: 0 <= k < |r| ==> r[k].signal in SplitNames(signals)
    ensures forall k :: 0 <= k < |r| ==> r[k].signal in ctrl.methods || |BoundTo(table, r[k].signal)| > 0
  {
    var names := SplitNames(signals);
    DeliverAll(table, ctrl, names)
  }

  /** A pipe-free declaration dispatches just its trimmed name. */
  lemma ProcessSingle(table: seq<Receiver>, ctrl: Controller, s: string)
    requires '|' !in s
    ensures ProcessSignals(table, ctrl, s) == Deliver(table, ctrl, Trim(s))
  {
    SplitNamesOne(s);
    assert DeliverAll(table, ctrl, [Trim(s)]) == Deliver(table, ctrl, Trim(s)) + DeliverAll(table, ctrl, []);
  }

  lemma {:induction false} DeliverAllAppend(table: seq<Receiver>, ctrl: Controller, a: seq<string>, b: seq<string>)
    ensures DeliverAll(table, ctrl, a + b) == DeliverAll(table, ctrl, a) + DeliverAll(table, ctrl, b)
  {
    if |a| == 0 {
      assert a + b == b;
    } else {
      var x, a' := a[0], a[1..];
      var head := Deliver(table, ctrl, x);
      var tail := DeliverAll(table, ctrl, a');
      var rest := DeliverAll(table, ctrl, b);
      assert a == [x] + a';
      assert a + b == [x] + (a' + b) by {
        ConcatAssoc([x], a', b);
      }
      assert DeliverAll(table, ctrl, a + b) == head + DeliverAll(table, ctrl, a' + b) by {
        DeliverAllCons(table, ctrl, x, a' + b);
      }
      assert DeliverAll(table, ctrl, a' + b) == tail + rest by {
        DeliverAllAppend(table, ctrl, a', b);
      }
      ConcatAssoc(head, tail, rest);
    }
  }

  lemma DeliverAllCons(table: seq<Receiver>, ctrl: Controller, x: string, rest: seq<string>)
    ensures DeliverAll(table, ctrl, [x] + rest) == Deliver(table, ctrl, x) + DeliverAll(table, ctrl, rest)
  {
    assert ([x] + rest)[0] == x;
    assert ([x] + rest)[1..] == rest;
  }

  /** Sending "a|b" is sending "a" and then "b". */
  lemma ProcessSignalsConcat(table: seq<Receiver>, ctrl: Controller, a: string, b: string)
    ensures ProcessSignals(table, ctrl, a + "|" + b)
            == ProcessSignals(table, ctrl, a) + ProcessSignals(table, ctrl, b)
  {
    SplitNamesConcat(a, b);
    DeliverAllAppend(table, ctrl, SplitNames(a), SplitNames(b));
  }

  lemma {:induction false} BoundToAppend(a: seq<Receiver>, b: seq<Receiver>, signal: string)
    ensures BoundTo(a + b, signal) == BoundTo(a, signal) + BoundTo(b, signal)
  {
    if |a| == 0 {
      assert a + b == b;
    } else {
      var head := if a[0].key == signal then [a[0].el] else [];
      var tail := BoundTo(a[1..], signal);
      assert BoundTo(a + b, signal) == head + BoundTo(a[1..] + b, signal) by {
        assert (a + b)[0] == a[0];
        assert (a + b)[1..] == a[1..] + b;
      }
      assert BoundTo(a[1..] + b, signal) == tail + BoundTo(b, signal) by {
        BoundToAppend(a[1..], b, signal);
      }
      ConcatAssoc(head, tail, BoundTo(b, signal));
    }
  }

  lemma {:induction false} BoundToBind(names: seq<string>, ctrl: Controller, n: nat, signal: string)
    ensures BoundTo(Bind(names, ctrl, n), signal)
            == if signal in ctrl.methods then Repeat(n, Occurrences(names, signal)) else []
  {
    if |names| > 0 {
      var head := if names[0] in ctrl.methods then [Receiver(names[0], n)] else [];
      BoundToAppend(head, Bind(names[1..], ctrl, n), signal);
      BoundToBind(names[1..], ctrl, n, signal);
      if signal in ctrl.methods && names[0] == signal {
        RepeatSucc(n, Occurrences(names[1..], signal));
      }
    }
  }

  function Repeat(x: nat, k: nat): (r: seq<nat>)
    ensures |r| == k && forall i :: 0 <= i < k ==> r[i] == x
  {
    if k == 0 then [] else [x] + Repeat(x, k - 1)
  }

  lemma RepeatSucc(x: nat, k: nat)
    ensures Repeat(x, k + 1) == [x] + Repeat(x, k)
  {
  }

  /** Reference list of receivers for `signal` read off the DOM: each
      descendant, in document order, once per time it declares the name. */
  function Declaring(doc: seq<Element>, signal: string): (r: seq<nat>)
    ensures forall k :: 0 <= k < |r| ==> r[k] < |doc|
  {
    if |doc| == 0 then []
    else
      var n := |doc| - 1;
      Declaring(doc[..n], signal) + Repeat(n, Occurrences(Declared(doc[n]), signal))
  }

  /** A descendant is in the reference list exactly when its
      `data-receive` declares the signal. */
  lemma {:induction false} DeclaringMembership(doc: seq<Element>, signal: string, i: nat)
    ensures i in Declaring(doc, signal)
            <==> && i < |doc|
                 && "receive" in doc[i].dataset
                 && signal in SplitNames(doc[i].dataset["receive"])
  {
    if |doc| > 0 {
      var n := |doc| - 1;
      DeclaringMembership(doc[..n], signal, i);
      OccurrencesPositive(Declared(doc[n]), signal);
      var k := Occurrences(Declared(doc[n]), signal);
      assert i in Repeat(n, k) <==> i == n && k > 0 by {
        if i in Repeat(n, k) {
          var j :| 0 <= j < k && Repeat(n, k)[j] == i;
        }
        if i == n && k > 0 {
          assert Repeat(n, k)[0] == i;
        }
      }
      if i < n {
        assert doc[..n][i] == doc[i];
      }
    }
  }

  /** After `loadReceivers`, dispatching a signal the controller has
      reaches exactly the descendants declaring it, in document order;
      a signal the controller lacks reaches no receiver. */
  lemma {:induction false} LoadedTargets(doc: seq<Element>, ctrl: Controller, signal: string)
    ensures BoundTo(LoadReceivers(doc, ctrl), signal)
            == if signal in ctrl.methods then Declaring(doc, signal) else []
  {
    if |doc| > 0 {
      var n := |doc| - 1;
      LoadedTargets(doc[..n], ctrl, signal);
      BoundToAppend(LoadReceivers(doc[..n], ctrl), Bind(Declared(doc[n]), ctrl, n), signal);
      BoundToBind(Declared(doc[n]), ctrl, n, signal);
    }
  }

  /** Dispatching a signal against the freshly loaded table, in terms of
      the DOM: no call when the controller lacks the method; one null
      call when no descendant declares it; otherwise one call per
      declaring descendant in document order. */
  lemma DispatchAfterLoad(doc: seq<Element>, ctrl: Controller, signal: string)
    ensures var r := Deliver(LoadReceivers(doc, ctrl), ctrl, signal);
            var d := Declaring(doc, signal);
            && (signal !in ctrl.methods ==> r == [])
            && (signal in ctrl.methods && |d| == 0 ==> r == [Invocation(signal, None)])
            && (signal in ctrl.methods && |d| > 0 ==>
                  |r| == |d| && forall k :: 0 <= k < |r| ==> r[k] == Invocation(signal, Some(d[k])))
  {
    LoadedTargets(doc, ctrl, signal);
  }

  /** The outcome of a dispatch: the event as it is afterwards (its
      target's dataset may have lost `forward`) and the calls made. */
  datatype Handled = Handled(event: Event, trace: seq<Invocation>)

  function DatasetOf(e: Event): (r: Option<Dataset>)
    ensures r.Some? ==> e.target.Some? && r == e.target.value.dataset
  {
    if e.target.Some? then e.target.value.dataset else None
  }

  /** `handleEvent`: a truthy `dataset.forward` wins and is deleted before
      dispatch; otherwise `dataset.send` is dispatched. Reading from a
      missing target or dataset, or splitting an absent `send`, throws. */
  function HandleEvent(e: Event, table: seq<Receiver>, ctrl: Controller): (r: Result<Handled, DispatchError>)
    ensures r.Ok? <==> DatasetOf(e).Some? && (Truthy(DatasetOf(e).value, "forward") || "send" in DatasetOf(e).value)
    ensures r.Ok? ==> r.value.event.kind == e.kind
                      && r.value.event.target.Some?
                      && r.value.event.target.value.nodeName == e.target.value.nodeName
    ensures r.Ok? ==>
              var d := DatasetOf(e).value;
              var d' := DatasetOf(r.value.event);
              && d'.Some?
              && d'.value - {"forward"} == d - {"forward"}
              && (Truthy(d, "forward") ==>
                    "forward" !in d'.value && r.value.trace == ProcessSignals(table, ctrl, d["forward"]))
              && (!Truthy(d, "forward") ==>
                    d'.value == d && r.value.trace == ProcessSignals(table, ctrl, d["send"]))
  {
    match DatasetOf(e)
    case None => Err(TypeError)
    case Some(d) =>
      if Truthy(d, "forward") then
        var t := e.target.value.(dataset := Some(d - {"forward"}));
        Ok(Handled(e.(target := Some(t)), ProcessSignals(table, ctrl, d["forward"])))
      else if "send" in d then
        Ok(Handled(e, ProcessSignals(table, ctrl, d["send"])))
      else Err(TypeError)
  }

  /** Without a truthy `forward`, handling dispatches `send` and leaves
      the event unchanged. */
  lemma HandleSend(e: Event, table: seq<Receiver>, ctrl: Controller)
    requires DatasetOf(e).Some? && !Truthy(DatasetOf(e).value, "forward") && "send" in DatasetOf(e).value
    ensures HandleEvent(e, table, ctrl) == Ok(Handled(e, ProcessSignals(table, ctrl, DatasetOf(e).value["send"])))
  {
  }

  /** The event `forward(event, signal)` hands to `handleEvent`: a null
      event, or one without a target or dataset, is replaced by the
      synthetic `{type: "bittyforward", target: {dataset: {forward:
      signal}}}`; otherwise the event's own target gets `forward` set. */
  function ForwardEvent(e: Option<Event>, signal: string): (r: Event)
    ensures DatasetOf(r).Some? && "forward" in DatasetOf(r).value
    ensures DatasetOf(r).value["forward"] == signal
    ensures e.None? || DatasetOf(e.value).None? ==>
              r.kind == "bittyforward" && DatasetOf(r).value == map["forward" := signal]
    ensures e.Some? && DatasetOf(e.value).Some? ==>
              r.kind == e.value.kind && DatasetOf(r).value == DatasetOf(e.value).value["forward" := signal]
  {
    if e.None? || DatasetOf(e.value).None? then
      Event("bittyforward", Some(Target("", Some(map["forward" := signal]))))
    else
      var t := e.value.target.value;
      e.value.(target := Some(t.(dataset := Some(t.dataset.value["forward" := signal]))))
  }

  /** `forward(event, signal)`: a non-empty signal is dispatched exactly,
      and the target is left without `forward`; the target's other keys
      are untouched. */
  function Forward(e: Option<Event>, signal: string, table: seq<Receiver>, ctrl: Controller): (r: Result<Handled, DispatchError>)
    ensures (e.None? || DatasetOf(e.value).None?) && r.Ok? ==> r.value.event.kind == "bittyforward"
    ensures signal != "" ==>
              && r.Ok?
              && r.value.trace == ProcessSignals(table, ctrl, signal)
              && DatasetOf(r.value.event).Some?
              && "forward" !in DatasetOf(r.value.event).value
    ensures e.Some? && DatasetOf(e.value).Some? && r.Ok? ==>
              DatasetOf(r.value.event).Some?
              && DatasetOf(r.value.event).value - {"forward"} == DatasetOf(e.value).value - {"forward"}
  {
    var fe := ForwardEvent(e, signal);
    var r := HandleEvent(fe, table, ctrl);
    assert e.Some? && DatasetOf(e.value).Some? && r.Ok? ==>
             DatasetOf(fe).value - {"forward"} == DatasetOf(e.value).value - {"forward"};
    r
  }

  /** `forward` with an empty signal leaves `forward: ""` on the target
      and dispatches the target's `send` instead, failing when there is
      none (as for every synthetic event). */
  lemma ForwardEmpty(e: Option<Event>, table: seq<Receiver>, ctrl: Controller)
    ensures var r := Forward(e, "", table, ctrl);
            && (e.None? || DatasetOf(e.value).None? ==> r.Err?)
            && (e.Some? && DatasetOf(e.value).Some? ==>
                  var d := DatasetOf(e.value).value;
                  && (r.Ok? <==> "send" in d)
                  && (r.Ok? ==> r.value.trace == ProcessSignals(table, ctrl, d["send"])
                                && DatasetOf(r.value.event) == Some(d["forward" := ""])))
  {
  }

  /** The forward override is one-shot: handling the same event again
      dispatches its `send` (or fails when it has none). */
  lemma ForwardConsumed(e: Event, table: seq<Receiver>, ctrl: Controller)
    requires DatasetOf(e).Some? && Truthy(DatasetOf(e).value, "forward")
    ensures var first := HandleEvent(e, table, ctrl);
            var d := DatasetOf(e).value;
            first.Ok? &&
            var second := HandleEvent(first.value.event, table, ctrl);
            && (second.Ok? <==> "send" in d)
            && (second.Ok? ==> second.value.trace == ProcessSignals(table, ctrl, d["send"]))
  {
    var d := DatasetOf(e).value;
    var first := HandleEvent(e, table, ctrl);
    var d' := DatasetOf(first.value.event).value;
    assert "send" in d' <==> "send" in d by {
      assert "send" in d - {"forward"} <==> "send" in d;
    }
    if "send" in d {
      assert d'["send"] == (d' - {"forward"})["send"];
    }
  }
}

=== FILE: dom.dfy ===
/** The slice of the DOM the element reads and writes: a node name and
    the `dataset` bag of `data-*` attributes, and the controller seen
    through the names of its properties. */
module Dom {

  /** `el.dataset`: attribute names without the `data-` prefix. */
  type Dataset = map<string, string>

  datatype Element = Element(nodeName: string, dataset: Dataset)

  /** The controller object, reduced to its property names (own or
      inherited): `methods` holds those whose value is truthy, which is
      what `addReceiver` and the fallback of `processSignals` test, and
      `functions` those whose `typeof` is "function", which is what
      `callBittyInit` tests. */
  datatype Controller = Controller(methods: set<string>, functions: set<string>)

  /** The element's tag: `bitty-${version[0]}-${version[1]}` for version
      2.0.0-rc1. */
  const TagName: string := "bitty-2-0"

  /** JavaScript truthiness of `dataset[key]`: present and not "". */
  predicate Truthy(d: Dataset, key: string)
  {
    key in d && d[key] != ""
  }

  /** Datasets that agree outside `keys` agree outside any larger set. */
  lemma AgreeOutside(a: Dataset, b: Dataset, keys: set<string>, more: set<string>)
    requires a - keys == b - keys && keys <= more
    ensures a - more == b - more
  {
    forall k | k in a - more ensures k in b - more && (a - more)[k] == (b - more)[k] {
      assert k in a - keys;
    }
    forall k | k in b - more ensures k in a - more {
      assert k in b - keys;
    }
  }

  /** Writing a key that is then removed leaves no trace. */
  lemma WriteOutside(d: Dataset, key: string, v: string, more: set<string>)
    requires key in more
    ensures d[key := v] - more == d - more
  {
  }
}

=== FILE: fetch.dfy ===
/** The string side of the content helpers: `useTemplate` up to the
    markup it parses, `fetchTxt`/`fetchTemplate` given the response, and
    `fetchLines` on top of `fetchTxt`. The request itself is a
    parameter. */
module Fetch {
  import opened Base
  import opened Text
  import opened Replace

  /** What `await fetch(url, options)` produced: a rejection, or a
      response with its `ok`, `status`, `statusText` and body text. */
  datatype Response = NetworkFailure | Response(ok: bool, status: nat, statusText: string, body: string)

  /** Failures that escape a helper as a rejected promise. */
  datatype FetchError = FetchRejected | TypeError

  /** A helper's value and the lines it wrote with `console.error`. */
  datatype Fetched<T> = Fetched(value: Result<T, FetchError>, log: seq<string>)

  /** `useTemplate(content, subs)` up to the markup handed to the
      template element. */
  function UseTemplate(content: string, subs: seq<(string, string)>): (r: string)
    ensures r == ApplySubs(content, subs)
    ensures |subs| == 0 ==> r == content
    ensures (forall i :: 0 <= i < |subs| ==> IndexOf(content, subs[i].0, 0).None?) ==> r == content
  {
    var r := ApplySubs(content, subs);
    assert (forall i :: 0 <= i < |subs| ==> IndexOf(content, subs[i].0, 0).None?) ==> r == content by {
      if forall i :: 0 <= i < |subs| ==> IndexOf(content, subs[i].0, 0).None? {
        ApplySubsAbsent(content, subs);
      }
    }
    r
  }

  function Digit(d: nat): (c: char)
    requires d < 10
    ensures IsDigit(c) && DigitValue(c) == d
  {
    "0123456789"[d]
  }

  predicate IsDigit(c: char)
  {
    '0' <= c <= '9'
  }

  function DigitValue(c: char): (r: nat)
    requires IsDigit(c)
  {
    c as int - '0' as int
  }

  /** Reference reading of a run of decimal digits, most significant
      first. */
  function DecimalValue(s: string): (r: nat)
    requires forall k :: 0 <= k < |s| ==> IsDigit(s[k])
  {
    if |s| == 0 then 0 else 10 * DecimalValue(s[..|s| - 1]) + DigitValue(s[|s| - 1])
  }

  /** Decimal text of a status code, as template-literal interpolation
      writes it: digits only, no leading zero, reading back as `n`. */
  function NatToString(n: nat): (r: string)
    ensures |r| > 0 && forall k :: 0 <= k < |r| ==> IsDigit(r[k])
    ensures DecimalValue(r) == n
    ensures r[0] == '0' ==> r == "0"
    decreases n
  {
    if n < 10 then [Digit(n)]
    else
      var front := NatToString(n / 10);
      var r := front + [Digit(n % 10)];
      assert r[..|r| - 1] == front;
      r
  }

  const ErrorPrefix: string := "fetchJson Error ["

  /** The logged line for a non-ok response: the thrown Error's text
      inside the catch message. The URL appears right after the prefix
      and again at the very end, and the status is written in decimal
      after "Error: ". */
  function ErrorLine(url: string, status: nat, statusText: string): (r: string)
    ensures |ErrorPrefix| + |url| <= |r| && r[..|ErrorPrefix|] == ErrorPrefix
    ensures r[|ErrorPrefix|..|ErrorPrefix| + |url|] == url
    ensures |url| <= |r| && r[|r| - |url|..] == url
    ensures var k := |ErrorPrefix| + |url| + |"] - Error: "|;
            k + |NatToString(status)| <= |r| && r[k..k + |NatToString(status)|] == NatToString(status)
  {
    ErrorPrefix + url + "] - Error: " + NatToString(status) + " [" + statusText + "] - " + url
  }

  /** `fetchTxt`: a non-ok response logs one line and yields `undefined`
      (`None`); an ok one yields its body with the substitutions applied.
      A rejected `fetch` happens before the `try` and escapes. */
  function FetchTxt(resp: Response, url: string, subs: seq<(string, string)>): (r: Fetched<Option<string>>)
    ensures resp.NetworkFailure? <==> r.value.Err?
    ensures resp.NetworkFailure? ==> r.log == []
    ensures resp.Response? && !resp.ok ==>
              r.value == Ok(None) && r.log == [ErrorLine(url, resp.status, resp.statusText)]
    ensures resp.Response? && resp.ok ==> r.value == Ok(Some(UseTemplate(resp.body, subs))) && r.log == []
  {
    match resp
    case NetworkFailure => Fetched(Err(FetchRejected), [])
    case Response(ok, status, statusText, body) =>
      if !ok then Fetched(Ok(None), [ErrorLine(url, status, statusText)])
      else Fetched(Ok(Some(ApplySubs(body, subs))), [])
  }

  /** `fetchTemplate` awaits and returns what `fetchTxt` produces: the
      substituted body, or `undefined` with the one logged line. */
  function FetchTemplate(resp: Response, url: string, subs: seq<(string, string)>): (r: Fetched<Option<string>>)
    ensures resp.NetworkFailure? ==> r.value.Err? && r.log == []
    ensures resp.Response? && !resp.ok ==>
              r == Fetched(Ok(None), [ErrorLine(url, resp.status, resp.statusText)])
    ensures resp.Response? && resp.ok ==> r == Fetched(Ok(Some(UseTemplate(resp.body, subs))), [])
  {
    FetchTxt(resp, url, subs)
  }

  /** `fetchLines`: the text split on "\n" with each line trimmed; when
      `fetchTxt` yields `undefined` the `split` call throws. */
  function FetchLines(resp: Response, url: string, subs: seq<(string, string)>): (r: Fetched<seq<string>>)
    ensures r.log == FetchTxt(resp, url, subs).log
    ensures r.value.Ok? <==> resp.Response? && resp.ok
    ensures r.value.Ok? ==> r.value.value == Lines(UseTemplate(resp.body, subs))
  {
    var t := FetchTxt(resp, url, subs);
    match t.value
    case Err(e) => Fetched(Err(e), t.log)
    case Ok(None) => Fetched(Err(TypeError), t.log)
    case Ok(Some(content)) => Fetched(Ok(Lines(content)), t.log)
  }

  /** Joining the lines of text whose lines carry no surrounding
      whitespace gives the text back. */
  lemma LinesRoundTrip(s: string)
    requires forall i :: 0 <= i < |Split(s, '\n')| ==> Trimmed(Split(s, '\n')[i])
    ensures Join(Lines(s), '\n') == s
  {
    var raw := Split(s, '\n');
    forall i | 0 <= i < |raw| ensures Trim(raw[i]) == raw[i] {
      TrimTrimmed(raw[i]);
    }
    assert Lines(s) == raw;
    JoinSplit(s, '\n');
  }
}

=== FILE: ids.dfy ===
/** Identity allocation (`setIds`) and the `match` helper that compares
    two elements by a dataset key, `uuid` by default.

    `crypto.randomUUID` is replaced by a supply `supply: nat -> string`
    read from a counter: every call takes the next index. */
module Ids {
  import opened Base
  import opened Dom

  predicate HasId(e: Element)
  {
    Truthy(e.dataset, "uuid")
  }

  /** The element with its `uuid` set to `id`, everything else kept. */
  function Stamp(e: Element, id: string): (r: Element)
  {
    e.(dataset := e.dataset["uuid" := id])
  }

  /** Elements that `setIds` must stamp. */
  function Missing(doc: seq<Element>): (r: nat)
  {
    if |doc| == 0 then 0
    else (if HasId(doc[|doc| - 1]) then 0 else 1) + Missing(doc[..|doc| - 1])
  }

  datatype Allocated = Allocated(doc: seq<Element>, next: nat)

  /** `setIds`: every descendant without a truthy `uuid` receives a supply
      one, in document order; the others are left alone. */
  function SetIds(doc: seq<Element>, supply: nat -> string, next: nat): (r: Allocated)
    ensures |r.doc| == |doc|
    ensures r.next == next + Missing(doc)
  {
    if |doc| == 0 then Allocated(doc, next)
    else
      var last := doc[|doc| - 1];
      var a := SetIds(doc[..|doc| - 1], supply, next);
      if HasId(last) then Allocated(a.doc + [last], a.next)
      else Allocated(a.doc + [Stamp(last, supply(a.next))], a.next + 1)
  }

  /** The slot `setIds` gives descendant `i`: kept when it has an id,
      otherwise stamped with the supply entry after those handed to the
      unidentified descendants before it. */
  function Allocation(doc: seq<Element>, supply: nat -> string, next: nat, i: nat): (r: Element)
    requires i < |doc|
  {
    if HasId(doc[i]) then doc[i] else Stamp(doc[i], supply(next + Missing(doc[..i])))
  }

  /** What `setIds` does to each descendant: one that has an id is kept
      as is; the others are stamped, in document order, with consecutive
      ids from the supply. */
  lemma {:induction false} SetIdsStamps(doc: seq<Element>, supply: nat -> string, next: nat)
    ensures var r := SetIds(doc, supply, next).doc;
            forall i :: 0 <= i < |doc| ==> r[i] == Allocation(doc, supply, next, i)
  {
    if |doc| > 0 {
      var prefix := doc[..|doc| - 1];
      var last := doc[|doc| - 1];
      SetIdsStamps(prefix, supply, next);
      var A := SetIds(prefix, supply, next);
      var r := SetIds(doc, supply, next).doc;
      var x := if HasId(last) then last else Stamp(last, supply(A.next));
      assert r == A.doc + [x];
      forall i | 0 <= i < |doc|
        ensures r[i] == Allocation(doc, supply, next, i)
      {
        if i < |prefix| {
          AllocationPrefix(doc, supply, next, i);
        } else {
          assert doc[..i] == prefix;
        }
      }
    }
  }

  lemma AllocationPrefix(doc: seq<Element>, supply: nat -> string, next: nat, i: nat)
    requires i < |doc| - 1
    ensures Allocation(doc[..|doc| - 1], supply, next, i) == Allocation(doc, supply, next, i)
  {
    assert doc[..|doc| - 1][..i] == doc[..i];
  }

  /** The supply hands out non-empty ids. */
  ghost predicate NonEmptySupply(supply: nat -> string)
  {
    forall k :: supply(k) != ""
  }

  predicate AllIdentified(doc: seq<Element>)
  {
    forall i :: 0 <= i < |doc| ==> HasId(doc[i])
  }

  /** After `setIds` every descendant has a non-empty `uuid`. */
  lemma SetIdsIdentifiesAll(doc: seq<Element>, supply: nat -> string, next: nat)
    requires NonEmptySupply(supply)
    ensures AllIdentified(SetIds(doc, supply, next).doc)
  {
    SetIdsStamps(doc, supply, next);
  }

  /** With every descendant already identified `setIds` changes nothing
      and draws nothing from the supply. */
  lemma {:induction false} SetIdsNoop(doc: seq<Element>, supply: nat -> string, next: nat)
    requires AllIdentified(doc)
    ensures SetIds(doc, supply, next) == Allocated(doc, next)
  {
    if |doc| > 0 {
      var prefix := doc[..|doc| - 1];
      var last := doc[|doc| - 1];
      assert AllIdentified(prefix) by {
        forall i | 0 <= i < |prefix| ensures HasId(prefix[i]) {
          assert prefix[i] == doc[i];
        }
      }
      assert SetIds(prefix, supply, next) == Allocated(prefix, next) by {
        SetIdsNoop(prefix, supply, next);
      }
      assert HasId(last);
      assert prefix + [last] == doc;
    }
  }


  /** `setIds` is idempotent. */
  lemma SetIdsIdempotent(doc: seq<Element>, supply: nat -> string, next: nat, next': nat)
    requires NonEmptySupply(supply)
    ensures var a := SetIds(doc, supply, next);
            SetIds(a.doc, supply, next') == Allocated(a.doc, next')
  {
    SetIdsIdentifiesAll(doc, supply, next);
    SetIdsNoop(SetIds(doc, supply, next).doc, supply, next');
  }

  function Id(e: Element): (r: string)
    requires HasId(e)
  {
    e.dataset["uuid"]
  }

  /** No two identified elements share an id. */
  predicate UniqueIds(doc: seq<Element>)
  {
    forall i, j :: 0 <= i < j < |doc| && HasId(doc[i]) && HasId(doc[j]) ==> Id(doc[i]) != Id(doc[j])
  }

  /** The supply from `next` on never repeats itself and never returns an
      id an element of `doc` already carries. */
  ghost predicate FreshFor(supply: nat -> string, next: nat, doc: seq<Element>)
  {
    && NonEmptySupply(supply)
    && (forall k, k' :: next <= k < k' ==> supply(k) != supply(k'))
    && (forall k, i :: next <= k && 0 <= i < |doc| && HasId(doc[i]) ==> supply(k) != Id(doc[i]))
  }

  lemma {:induction false} MissingGrows(doc: seq<Element>, i: nat, j: nat)
    requires i < j <= |doc| && !HasId(doc[i])
    ensures Missing(doc[..i]) < Missing(doc[..j])
    decreases j
  {
    if j == i + 1 {
      assert doc[..j][..i] == doc[..i];
    } else {
      MissingGrows(doc, i, j - 1);
      assert doc[..j][..j - 1] == doc[..j - 1];
    }
  }

  /** `setIds` keeps ids unique: ids that were unique stay unique and the
      new ones collide with nothing. */
  lemma SetIdsUnique(doc: seq<Element>, supply: nat -> string, next: nat)
    requires UniqueIds(doc) && FreshFor(supply, next, doc)
    ensures UniqueIds(SetIds(doc, supply, next).doc)
    ensures AllIdentified(SetIds(doc, supply, next).doc)
  {
    SetIdsStamps(doc, supply, next);
    var r := SetIds(doc, supply, next).doc;
    forall i, j | 0 <= i < j < |r| ensures Id(r[i]) != Id(r[j]) {
      assert r[i] == Allocation(doc, supply, next, i);
      assert r[j] == Allocation(doc, supply, next, j);
      if !HasId(doc[i]) && !HasId(doc[j]) {
        MissingGrows(doc, i, j);
      }
    }
  }

  /** `match(event, el, key)`: `key` defaults to "uuid"; false when either
      side lacks the key, otherwise string equality. An event without a
      target or a target without a dataset throws. */
  function Match(target: Option<Dataset>, el: Dataset, key: string): (r: Option<bool>)
    ensures r.None? <==> target.None?
    ensures target.Some? && key != "" ==>
              (r == Some(true) <==> key in target.value && key in el && target.value[key] == el[key])
    ensures target.Some? && key == "" ==>
              (r == Some(true) <==> "uuid" in target.value && "uuid" in el && target.value["uuid"] == el["uuid"])
  {
    match target
    case None => None
    case Some(t) =>
      var k := if key == "" then "uuid" else key;
      if k !in t || k !in el then Some(false) else Some(t[k] == el[k])
  }

  /** `match` does not care which side is the event's target. */
  lemma MatchSymmetric(a: Dataset, b: Dataset, key: string)
    ensures Match(Some(a), b, key) == Match(Some(b), a, key)
  {
  }

  /** After `setIds` with unique ids, the default `match` picks out
      exactly the element itself. */
  lemma MatchIdentifies(doc: seq<Element>, supply: nat -> string, next: nat, i: nat, j: nat)
    requires UniqueIds(doc) && FreshFor(supply, next, doc)
    requires i < |doc| && j < |doc|
    ensures var r := SetIds(doc, supply, next).doc;
            Match(Some(r[i].dataset), r[j].dataset, "") == Some(i == j)
  {
    SetIdsUnique(doc, supply, next);
    var r := SetIds(doc, supply, next).doc;
    if i < j {
      assert Id(r[i]) != Id(r[j]);
    } else if j < i {
      assert Id(r[j]) != Id(r[i]);
    }
  }
}

=== FILE: lifecycle.dfy ===
/** The host element's lifecycle: `connectedCallback` sequencing,
    `runSendFromComponent`, and `handleMutations` re-running `setIds` and
    `loadReceivers`. The state is immutable; each step returns the next
    state and the controller calls it made. */
module Lifecycle {
  import opened Base
  import opened Text
  import opened Dom
  import opened Ids
  import opened Receivers
  import opened Dispatch
  import opened Bridge
  import opened Connection

  /** One host: its own dataset, its descendants in document order, the
      controller (none when unconnected or when connecting failed), the
      receiver table, the listener types installed on the document, and
      the next index into the id supply. `observing` records whether the
      mutation observer was started. */
  datatype Host = Host(
    dataset: Dataset,
    doc: seq<Element>,
    conn: Option<Controller>,
    receivers: seq<Receiver>,
    listeners: seq<string>,
    observing: bool,
    next: nat)

  /** A call into the controller made by the lifecycle: `bittyInit()` or
      a signal handler. */
  datatype Call = Init | Handler(inv: Invocation)

  datatype Step = Step(host: Host, calls: seq<Call>)

  function Handlers(trace: seq<Invocation>): (r: seq<Call>)
    ensures |r| == |trace|
    ensures forall k :: 0 <= k < |r| ==> r[k] == Handler(trace[k])
  {
    seq(|trace|, k requires 0 <= k < |trace| => Handler(trace[k]))
  }

  /** The host itself as an event target. A browser reports an HTML
      element's `nodeName` in upper case; the bridge's filter, which this
      event bypasses, would reject it in either case. */
  function HostTarget(dataset: Dataset): (r: Target)
    ensures r.dataset == Some(dataset)
    ensures AsciiLower(r.nodeName) == TagName
  {
    Target("BITTY-2-0", Some(dataset))
  }

  /** `runSendFromComponent`: a host with a truthy `data-send` handles
      the event `{type: "bittytagdatasend", target: this}`; its own
      `data-forward`, when truthy, wins and is removed from the host. */
  function RunSendFromComponent(h: Host, ctrl: Controller): (r: Step)
    ensures !Truthy(h.dataset, "send") ==> r == Step(h, [])
    ensures Truthy(h.dataset, "send") && !Truthy(h.dataset, "forward") ==>
              r.host == h && r.calls == Handlers(ProcessSignals(h.receivers, ctrl, h.dataset["send"]))
    ensures Truthy(h.dataset, "send") && Truthy(h.dataset, "forward") ==>
              r.host == h.(dataset := h.dataset - {"forward"})
              && r.calls == Handlers(ProcessSignals(h.receivers, ctrl, h.dataset["forward"]))
  {
    if !Truthy(h.dataset, "send") then Step(h, [])
    else
      var e := Event("bittytagdatasend", Some(HostTarget(h.dataset)));
      var handled := HandleEvent(e, h.receivers, ctrl).value;
      Step(h.(dataset := DatasetOf(handled.event).value), Handlers(handled.trace))
  }

  /** `this.conn.api = this`: the host stores itself on the controller
      before the table is built. The host element is truthy but not a
      function, so from then on `data-receive="api"` binds and a call of
      `api` is a call of a non-function. */
  function WithApi(ctrl: Controller): (r: Controller)
    ensures "api" in r.methods && "api" !in r.functions
    ensures forall s :: s != "api" ==> (s in r.methods <==> s in ctrl.methods)
    ensures forall s :: s != "api" ==> (s in r.functions <==> s in ctrl.functions)
  {
    Controller(ctrl.methods + {"api"}, ctrl.functions - {"api"})
  }

  /** The steps after a controller was resolved: store the host on it as
      `api`, load the receivers, start observing, install the listeners,
      call `bittyInit` when it is a function, then run the host's own
      `data-send`. */
  function Start(h: Host, ctrl: Controller): (r: Step)
    ensures r.host.dataset - {"forward"} == h.dataset - {"forward"}
    ensures r.host.doc == h.doc && r.host.next == h.next
    ensures r.host.conn == Some(WithApi(ctrl))
    ensures r.host.receivers == LoadReceivers(h.doc, WithApi(ctrl))
    ensures r.host.listeners == Listeners(h.dataset)
    ensures r.host.observing
    ensures |r.calls| > 0 && r.calls[0] == Init <==> "bittyInit" in ctrl.functions
    ensures forall k :: 0 < k < |r.calls| ==> r.calls[k].Handler?
  {
    var attached := WithApi(ctrl);
    var ready := h.(conn := Some(attached), receivers := LoadReceivers(h.doc, attached),
                    listeners := Listeners(h.dataset), observing := true);
    var init := if "bittyInit" in attached.functions then [Init] else [];
    var sent := RunSendFromComponent(ready, attached);
    Step(sent.host, init + sent.calls)
  }

  /** Every descendant declaring `api` is bound to the host's own `api`
      property, whatever the resolved class defines. */
  lemma ApiBound(h: Host, ctrl: Controller, i: nat)
    ensures Receiver("api", i) in Start(h, ctrl).host.receivers
            <==> i < |h.doc| && "api" in Declared(h.doc[i])
  {
    LoadReceiversContents(h.doc, WithApi(ctrl), "api", i);
  }

  /** `connectedCallback`: the host gets a new `uuid`, descendants get
      missing ids, the controller is resolved; on failure nothing else
      happens, otherwise the host is started. */
  function Connect(dataset: Dataset, doc: seq<Element>, env: Env, supply: nat -> string, next: nat): (r: Step)
    ensures r.host.dataset - {"uuid", "forward"} == dataset - {"uuid", "forward"}
    ensures "uuid" in r.host.dataset && r.host.dataset["uuid"] == supply(next)
    ensures r.host.doc == SetIds(doc, supply, next + 1).doc
    ensures MakeConnection(dataset, env).Err? ==>
              r.host.conn.None? && r.host.receivers == [] && r.host.listeners == []
              && !r.host.observing && r.calls == []
    ensures MakeConnection(dataset, env).Ok? ==>
              var ctrl := MakeConnection(dataset, env).value;
              && r.host.conn == Some(WithApi(ctrl))
              && r.host.receivers == LoadReceivers(r.host.doc, WithApi(ctrl))
              && r.host.listeners == Listeners(dataset)
              && r.host.observing
              && (|r.calls| > 0 && r.calls[0] == Init <==> "bittyInit" in ctrl.functions)
              && (forall k :: 0 < k < |r.calls| ==> r.calls[k].Handler?)
  {
    var hostData := dataset["uuid" := supply(next)];
    var ids := SetIds(doc, supply, next + 1);
    var h := Host(hostData, ids.doc, None, [], [], false, ids.next);
    OnlyConnectMatters(dataset, supply(next), env);
    WriteOutside(dataset, "uuid", supply(next), {"uuid", "forward"});
    match MakeConnection(hostData, env)
    case Err(_) => Step(h, [])
    case Ok(ctrl) =>
      var r := Start(h, ctrl);
      assert "uuid" in r.host.dataset by {
        assert "uuid" in r.host.dataset - {"forward"};
      }
      AgreeOutside(r.host.dataset, hostData, {"forward"}, {"uuid", "forward"});
      r
  }

  /** A successful `connectedCallback` is `Start` on the host with its
      new `uuid` and its identified descendants. */
  lemma ConnectStarts(dataset: Dataset, doc: seq<Element>, env: Env, supply: nat -> string, next: nat)
    requires MakeConnection(dataset, env).Ok?
    ensures var ids := SetIds(doc, supply, next + 1);
            var h := Host(dataset["uuid" := supply(next)], ids.doc, None, [], [], false, ids.next);
            Connect(dataset, doc, env, supply, next) == Start(h, MakeConnection(dataset, env).value)
  {
    OnlyConnectMatters(dataset, supply(next), env);
  }

  /** The calls `connectedCallback` makes without a `data-send`: only
      `bittyInit()`, when the controller has it as a function. */
  lemma ConnectWithoutSend(dataset: Dataset, doc: seq<Element>, env: Env, supply: nat -> string, next: nat)
    requires MakeConnection(dataset, env).Ok? && !Truthy(dataset, "send")
    ensures var ctrl := MakeConnection(dataset, env).value;
            Connect(dataset, doc, env, supply, next).calls
            == if "bittyInit" in ctrl.functions then [Init] else []
  {
    ConnectStarts(dataset, doc, env, supply, next);
    assert !Truthy(dataset["uuid" := supply(next)], "send");
  }

  /** With a `data-send` (and no `data-forward`), `bittyInit()` comes
      first when the controller has it as a function, then the declared
      signals are dispatched against the table loaded from the freshly
      identified descendants, with the host attached as `api`. */
  lemma ConnectSends(dataset: Dataset, doc: seq<Element>, env: Env, supply: nat -> string, next: nat)
    requires MakeConnection(dataset, env).Ok?
    requires Truthy(dataset, "send") && !Truthy(dataset, "forward")
    ensures var ctrl := WithApi(MakeConnection(dataset, env).value);
            var table := LoadReceivers(SetIds(doc, supply, next + 1).doc, ctrl);
            Connect(dataset, doc, env, supply, next).calls
            == (if "bittyInit" in ctrl.functions then [Init] else [])
               + Handlers(ProcessSignals(table, ctrl, dataset["send"]))
  {
    ConnectStarts(dataset, doc, env, supply, next);
    var hostData := dataset["uuid" := supply(next)];
    assert Truthy(hostData, "send") && !Truthy(hostData, "forward");
    assert hostData["send"] == dataset["send"];
  }

  /** A host's own `data-forward` replaces its `data-send` as the
      signals dispatched on connection. */
  lemma ConnectForwards(dataset: Dataset, doc: seq<Element>, env: Env, supply: nat -> string, next: nat)
    requires MakeConnection(dataset, env).Ok?
    requires Truthy(dataset, "send") && Truthy(dataset, "forward")
    ensures var ctrl := WithApi(MakeConnection(dataset, env).value);
            var table := LoadReceivers(SetIds(doc, supply, next + 1).doc, ctrl);
            var r := Connect(dataset, doc, env, supply, next);
            && r.calls == (if "bittyInit" in ctrl.functions then [Init] else [])
                          + Handlers(ProcessSignals(table, ctrl, dataset["forward"]))
            && "forward" !in r.host.dataset
  {
    ConnectStarts(dataset, doc, env, supply, next);
    var hostData := dataset["uuid" := supply(next)];
    assert Truthy(hostData, "send") && Truthy(hostData, "forward");
    assert hostData["forward"] == dataset["forward"];
  }

  /** Resolution and listener configuration read only `connect` and
      `listeners`, so stamping the host's `uuid` first changes neither. */
  lemma OnlyConnectMatters(d: Dataset, id: string, env: Env)
    ensures MakeConnection(d["uuid" := id], env) == MakeConnection(d, env)
    ensures Listeners(d["uuid" := id]) == Listeners(d)
  {
    var d' := d["uuid" := id];
    assert ("connect" in d' <==> "connect" in d) && ("connect" in d ==> d'["connect"] == d["connect"]);
    assert ("listeners" in d' <==> "listeners" in d) && ("listeners" in d ==> d'["listeners"] == d["listeners"]);
  }

  datatype MutationKind = ChildList | Attributes | CharacterData

  /** A mutation record, reduced to its type and the sizes of its
      `addedNodes` and `removedNodes`. */
  datatype Mutation = Mutation(kind: MutationKind, added: nat, removed: nat)

  predicate Structural(m: Mutation)
  {
    m.kind == ChildList && (m.added > 0 || m.removed > 0)
  }

  predicate AnyStructural(batch: seq<Mutation>)
  {
    exists k :: 0 <= k < |batch| && Structural(batch[k])
  }

  /** `setIds` then `loadReceivers` on the current descendants. */
  function Refresh(h: Host, ctrl: Controller, supply: nat -> string): (r: Host)
    ensures r.dataset == h.dataset && r.conn == h.conn && r.listeners == h.listeners
    ensures r.observing == h.observing
    ensures var ids := SetIds(h.doc, supply, h.next); r.doc == ids.doc && r.next == ids.next
    ensures r.receivers == LoadReceivers(r.doc, ctrl)
  {
    var ids := SetIds(h.doc, supply, h.next);
    h.(doc := ids.doc, next := ids.next, receivers := LoadReceivers(ids.doc, ctrl))
  }

  /** `handleMutations(mutationList)`: delivered only to a host whose
      observer was started, it refreshes once per child-list record that
      added or removed nodes. `doc` is the subtree when the callback
      runs, after the whole batch. Only the descendants, the supply
      position and the table can change. */
  function HandleMutations(h: Host, batch: seq<Mutation>, supply: nat -> string): (r: Host)
    ensures r.dataset == h.dataset && r.conn == h.conn && r.listeners == h.listeners
    ensures r.observing == h.observing
    ensures !h.observing || h.conn.None? ==> r == h
    decreases |batch|
  {
    if !h.observing || h.conn.None? || |batch| == 0 then h
    else
      var h' := if Structural(batch[0]) then Refresh(h, h.conn.value, supply) else h;
      HandleMutations(h', batch[1..], supply)
  }

  /** A refresh of a refreshed host changes nothing. */
  lemma RefreshIdempotent(h: Host, ctrl: Controller, supply: nat -> string)
    requires NonEmptySupply(supply)
    ensures Refresh(Refresh(h, ctrl, supply), ctrl, supply) == Refresh(h, ctrl, supply)
  {
    SetIdsIdempotent(h.doc, supply, h.next, SetIds(h.doc, supply, h.next).next);
  }

  /** However many qualifying records a batch holds, the host ends up as
      after one refresh; a batch without one leaves it unchanged. */
  lemma {:induction false} MutationsRefreshOnce(h: Host, batch: seq<Mutation>, supply: nat -> string)
    requires NonEmptySupply(supply)
    ensures HandleMutations(h, batch, supply)
            == if h.observing && h.conn.Some? && AnyStructural(batch) then Refresh(h, h.conn.value, supply) else h
  {
    if h.observing && h.conn.Some? && |batch| > 0 {
      var ctrl := h.conn.value;
      if Structural(batch[0]) {
        var h' := Refresh(h, ctrl, supply);
        RefreshIdempotent(h, ctrl, supply);
        AfterRefresh(h', batch[1..], ctrl, supply);
      } else {
        MutationsRefreshOnce(h, batch[1..], supply);
        assert AnyStructural(batch) <==> AnyStructural(batch[1..]) by {
          if AnyStructural(batch) {
            var k :| 0 <= k < |batch| && Structural(batch[k]);
            assert batch[1..][k - 1] == batch[k];
          }
          if AnyStructural(batch[1..]) {
            var k :| 0 <= k < |batch[1..]| && Structural(batch[1..][k]);
            assert batch[k + 1] == batch[1..][k];
          }
        }
      }
    }
  }

  /** Once refreshed, further records keep the host where it is. */
  lemma {:induction false} AfterRefresh(h: Host, batch: seq<Mutation>, ctrl: Controller, supply: nat -> string)
    requires NonEmptySupply(supply)
    requires h.conn == Some(ctrl) && h == Refresh(h, ctrl, supply)
    ensures HandleMutations(h, batch, supply) == h
  {
    if h.observing && |batch| > 0 {
      AfterRefresh(h, batch[1..], ctrl, supply);
    }
  }

  /** After the callback for a batch that added or removed nodes, the
      host's own subtree has gone through `setIds` exactly once, so
      every descendant has an id, and the table is exactly the one a
      fresh scan of that subtree gives. */
  lemma MutationsKeepTableCurrent(h: Host, batch: seq<Mutation>, supply: nat -> string)
    requires NonEmptySupply(supply)
    requires h.observing && h.conn.Some? && AnyStructural(batch)
    ensures var r := HandleMutations(h, batch, supply);
            var ids := SetIds(h.doc, supply, h.next);
            && r.doc == ids.doc && r.next == ids.next
            && AllIdentified(r.doc)
            && r.receivers == LoadReceivers(r.doc, h.conn.value)
  {
    MutationsRefreshOnce(h, batch, supply);
    SetIdsIdentifiesAll(h.doc, supply, h.next);
  }

}

=== FILE: receivers.dfy ===
/** The receiver table (`loadReceivers`/`addReceiver`): one binding per
    declared name the controller has a method for, scanning the
    descendants that carry `data-receive` in document order. A binding
    names its element by its index in document order. */
module Receivers {
  import opened Base
  import opened Text
  import opened Dom

  datatype Receiver = Receiver(key: string, el: nat)

  /** The names descendant `e` declares in `data-receive`; none when it
      carries no such attribute (`querySelectorAll("[data-receive]")`
      selects on presence, so an empty value still declares "" once). */
  function Declared(e: Element): (r: seq<string>)
    ensures |r| > 0 <==> "receive" in e.dataset
    ensures forall k :: 0 <= k < |r| ==> Trimmed(r[k]) && '|' !in r[k]
  {
    if "receive" in e.dataset then SplitNames(e.dataset["receive"]) else []
  }

  /** An element whose `data-receive` is the pipe-join of plain names
      declares exactly those names, in that order. */
  lemma DeclaredJoin(e: Element, names: seq<string>)
    requires |names| > 0
    requires forall k :: 0 <= k < |names| ==> Trimmed(names[k]) && '|' !in names[k]
    requires "receive" in e.dataset && e.dataset["receive"] == Join(names, '|')
    ensures Declared(e) == names
  {
    SplitNamesJoin(names);
  }

  /** An empty or blank `data-receive` still declares the empty name
      once, and text without a pipe declares its trimmed self. */
  lemma DeclaredPipeFree(e: Element)
    requires "receive" in e.dataset && '|' !in e.dataset["receive"]
    ensures Declared(e) == [Trim(e.dataset["receive"])]
  {
    SplitNamesOne(e.dataset["receive"]);
  }

  /** `addReceiver` over one element's names, in declaration order. */
  function Bind(names: seq<string>, ctrl: Controller, el: nat): (r: seq<Receiver>)
    ensures |r| <= |names|
    ensures forall b :: b in r ==> b.el == el && b.key in names && b.key in ctrl.methods
  {
    if |names| == 0 then []
    else
      (if names[0] in ctrl.methods then [Receiver(names[0], el)] else [])
      + Bind(names[1..], ctrl, el)
  }

  /** `loadReceivers`: the table is built afresh from the descendants. */
  function LoadReceivers(doc: seq<Element>, ctrl: Controller): (r: seq<Receiver>)
    ensures forall b :: b in r ==> b.el < |doc|
  {
    if |doc| == 0 then []
    else
      var n := |doc| - 1;
      LoadReceivers(doc[..n], ctrl) + Bind(Declared(doc[n]), ctrl, n)
  }

  lemma {:induction false} BindMembership(names: seq<string>, ctrl: Controller, el: nat, s: string)
    ensures Receiver(s, el) in Bind(names, ctrl, el) <==> s in names && s in ctrl.methods
  {
    if |names| > 0 {
      BindMembership(names[1..], ctrl, el, s);
      assert names == [names[0]] + names[1..];
    }
  }

  /** The table holds `(s, i)` exactly when descendant `i` carries
      `data-receive`, `s` is one of the trimmed names its value splits
      into at `|`, and the controller has a method `s`. */
  lemma {:induction false} LoadReceiversContents(doc: seq<Element>, ctrl: Controller, s: string, i: nat)
    ensures Receiver(s, i) in LoadReceivers(doc, ctrl)
            <==> && i < |doc|
                 && "receive" in doc[i].dataset
                 && s in SplitNames(doc[i].dataset["receive"])
                 && s in ctrl.methods
  {
    if |doc| > 0 {
      var n := |doc| - 1;
      LoadReceiversContents(doc[..n], ctrl, s, i);
      BindMembership(Declared(doc[n]), ctrl, n, s);
      if i < n {
        assert doc[..n][i] == doc[i];
      }
    }
  }

  /** Bindings appear in document order of their elements. */
  predicate InDocumentOrder(table: seq<Receiver>)
  {
    forall a, b :: 0 <= a < b < |table| ==> table[a].el <= table[b].el
  }

  /** Bindings come in document order of their elements. */
  lemma {:induction false} LoadReceiversOrdered(doc: seq<Element>, ctrl: Controller)
    ensures InDocumentOrder(LoadReceivers(doc, ctrl))
  {
    if |doc| > 0 {
      var n := |doc| - 1;
      LoadReceiversOrdered(doc[..n], ctrl);
      var left := LoadReceivers(doc[..n], ctrl);
      var right := Bind(Declared(doc[n]), ctrl, n);
      var r := left + right;
      forall a, b | 0 <= a < b < |r| ensures r[a].el <= r[b].el {
        if b < |left| {
          assert r[a] == left[a] && r[b] == left[b];
          assert left[a].el <= left[b].el;
        } else {
          assert r[b] == right[b - |left|];
          assert right[b - |left|] in right;
          assert r[b].el == n;
          if a < |left| {
            assert r[a] == left[a];
            assert left[a] in left;
            assert |doc[..n]| == n;
            assert r[a].el < n;
          } else {
            assert r[a] == right[a - |left|];
            assert right[a - |left|] in right;
            assert r[a].el == n;
          }
        }
      }
    }
  }

  /** The bindings of one element, in table order. */
  function Of(table: seq<Receiver>, el: nat): (r: seq<Receiver>)
  {
    if |table| == 0 then []
    else (if table[0].el == el then [table[0]] else []) + Of(table[1..], el)
  }

  lemma {:induction false} OfAppend(a: seq<Receiver>, b: seq<Receiver>, el: nat)
    ensures Of(a + b, el) == Of(a, el) + Of(b, el)
  {
    if |a| == 0 {
      assert a + b == b;
    } else {
      var head := if a[0].el == el then [a[0]] else [];
      var tail := Of(a[1..], el);
      assert Of(a + b, el) == head + Of(a[1..] + b, el) by {
        assert (a + b)[0] == a[0];
        assert (a + b)[1..] == a[1..] + b;
      }
      assert Of(a[1..] + b, el) == tail + Of(b, el) by {
        OfAppend(a[1..], b, el);
      }
      ConcatAssoc(head, tail, Of(b, el));
    }
  }

  lemma {:induction false} OfBind(names: seq<string>, ctrl: Controller, n: nat, el: nat)
    ensures Of(Bind(names, ctrl, n), el) == if el == n then Bind(names, ctrl, n) else []
  {
    if |names| > 0 {
      var head := if names[0] in ctrl.methods then [Receiver(names[0], n)] else [];
      OfAppend(head, Bind(names[1..], ctrl, n), el);
      OfBind(names[1..], ctrl, n, el);
    }
  }

  /** Within one element the bindings follow the declaration order of its
      `data-receive`, keeping only the names the controller implements
      (a name declared twice is bound twice). */
  lemma {:induction false} LoadReceiversPerElement(doc: seq<Element>, ctrl: Controller, i: nat)
    ensures Of(LoadReceivers(doc, ctrl), i)
            == if i < |doc| then Bind(Declared(doc[i]), ctrl, i) else []
  {
    if |doc| > 0 {
      var n := |doc| - 1;
      LoadReceiversPerElement(doc[..n], ctrl, i);
      OfAppend(LoadReceivers(doc[..n], ctrl), Bind(Declared(doc[n]), ctrl, n), i);
      OfBind(Declared(doc[n]), ctrl, n, i);
      if i < n {
        assert doc[..n][i] == doc[i];
      }
    }
  }
}

=== FILE: replace.dfy ===
/** `String.prototype.replaceAll` with a string pattern, as the ECMAScript
    algorithm defines it (StringIndexOf, the advance of max(1, |pattern|),
    GetSubstitution), and the ordered substitution list applied by
    `useTemplate` and `fetchTxt`. */
module Replace {
  import opened Base

  predicate MatchesAt(s: string, pat: string, k: nat)
  {
    k + |pat| <= |s| && s[k..k + |pat|] == pat
  }

  /** StringIndexOf(s, pat, from): the first match at or after `from`. */
  function IndexOf(s: string, pat: string, from: nat): (r: Option<nat>)
    ensures r.Some? ==> from <= r.value && MatchesAt(s, pat, r.value)
    ensures r.Some? ==> forall k :: from <= k < r.value ==> !MatchesAt(s, pat, k)
    ensures r.None? ==> forall k :: from <= k ==> !MatchesAt(s, pat, k)
    decreases |s| - from
  {
    if from + |pat| > |s| then None
    else if MatchesAt(s, pat, from) then Some(from)
    else IndexOf(s, pat, from + 1)
  }

  /** GetSubstitution for a string pattern (no capture groups): `$$`
      yields "$", `$&` the match, `$`` the text before it, `$'` the text
      after it; every other character, a lone `$` included, is literal,
      so a template without `$` is inserted as it is. */
  function Substitution(matched: string, s: string, position: nat, template: string): (r: string)
    requires position + |matched| <= |s|
    ensures '$' !in template ==> r == template
  {
    if |template| == 0 then ""
    else if template[0] == '$' && |template| >= 2 && PatternChar(template[1]) then
      Pattern(matched, s, position, template[1]) + Substitution(matched, s, position, template[2..])
    else [template[0]] + Substitution(matched, s, position, template[1..])
  }

  /** The text `$c` stands for, for one of the four pattern characters. */
  function Pattern(matched: string, s: string, position: nat, c: char): string
    requires position + |matched| <= |s|
  {
    if c == '$' then "$"
    else if c == '&' then matched
    else if c == '`' then s[..position]
    else s[position + |matched|..]
  }

  /** A piece of a replacement template as GetSubstitution reads it: a
      character other than `$`, one of the patterns `$$`, `$&`, `$``
      and `$'`, or `$` before any other character, which stays as
      written. Every template without a trailing lone `$` is a sequence
      of pieces. */
  datatype Piece = Lit(c: char) | Dollar | Whole | Before | After | Other(c: char)

  predicate PatternChar(c: char)
  {
    c == '$' || c == '&' || c == '`' || c == '\''
  }

  predicate PieceOk(p: Piece)
  {
    match p
    case Lit(c) => c != '$'
    case Other(c) => !PatternChar(c)
    case _ => true
  }

  /** How a piece is written in the template. */
  function Spelling(p: Piece): string
  {
    match p
    case Lit(c) => [c]
    case Dollar => "$$"
    case Whole => "$&"
    case Before => "$`"
    case After => "$'"
    case Other(c) => ['$', c]
  }

  function Render(ps: seq<Piece>): string
  {
    if |ps| == 0 then "" else Spelling(ps[0]) + Render(ps[1..])
  }

  /** What a piece stands for at a match of `matched` at `position`. */
  function Meaning(p: Piece, matched: string, s: string, position: nat): string
    requires position + |matched| <= |s|
  {
    match p
    case Lit(c) => [c]
    case Dollar => "$"
    case Whole => matched
    case Before => s[..position]
    case After => s[position + |matched|..]
    case Other(c) => ['$', c]
  }

  function Expand(ps: seq<Piece>, matched: string, s: string, position: nat): string
    requires position + |matched| <= |s|
  {
    if |ps| == 0 then "" else Meaning(ps[0], matched, s, position) + Expand(ps[1..], matched, s, position)
  }

  /** GetSubstitution expands a template piece by piece: `$$` is one `$`,
      `$&` the match, `$`` the text before it, `$'` the text after it,
      and every other character as written. */
  lemma {:induction false} SubstitutionExpands(matched: string, s: string, position: nat, ps: seq<Piece>)
    requires position + |matched| <= |s|
    requires forall k :: 0 <= k < |ps| ==> PieceOk(ps[k])
    ensures Substitution(matched, s, position, Render(ps)) == Expand(ps, matched, s, position)
  {
    if |ps| > 0 {
      SubstitutionExpands(matched, s, position, ps[1..]);
      SubstitutionStep(matched, s, position, ps[0], Render(ps[1..]));
    }
  }

  /** Each `$` pattern on its own, and a lone `$`. */
  lemma SinglePatterns(matched: string, s: string, position: nat)
    requires position + |matched| <= |s|
    ensures Substitution(matched, s, position, "$$") == "$"
    ensures Substitution(matched, s, position, "$") == "$"
    ensures Substitution(matched, s, position, "$&") == matched
    ensures Substitution(matched, s, position, "$`") == s[..position]
    ensures Substitution(matched, s, position, "$'") == s[position + |matched|..]
  {
    assert "$$"[2..] == "$&"[2..] == "$`"[2..] == "$'"[2..] == "";
  }

  lemma SubstitutionStep(matched: string, s: string, position: nat, p: Piece, t: string)
    requires position + |matched| <= |s| && PieceOk(p)
    ensures Substitution(matched, s, position, Spelling(p) + t)
            == Meaning(p, matched, s, position) + Substitution(matched, s, position, t)
  {
    var w := Spelling(p) + t;
    match p
    case Lit(c) =>
      assert w[0] == c && w[1..] == t;
    case Other(c) =>
      assert w[0] == '$' && w[1] == c && w[1..] == [c] + t;
      assert ([c] + t)[0] == c && ([c] + t)[1..] == t;
    case _ =>
      assert w[0] == '$' && w[1] == Spelling(p)[1] && w[2..] == t;
  }

  function Advance(pat: string): (r: nat)
  {
    if |pat| == 0 then 1 else |pat|
  }

  /** The replaceAll loop from search position `from`, with the previous
      match ending at `lastEnd`. */
  function ReplaceFrom(s: string, pat: string, rep: string, from: nat, lastEnd: nat): (r: string)
    requires lastEnd <= from && lastEnd <= |s|
    decreases |s| + 1 - from
  {
    match IndexOf(s, pat, from)
    case None => s[lastEnd..]
    case Some(p) =>
      s[lastEnd..p] + Substitution(pat, s, p, rep)
      + ReplaceFrom(s, pat, rep, p + Advance(pat), p + |pat|)
  }

  /** `s.replaceAll(pat, rep)`. */
  function ReplaceAll(s: string, pat: string, rep: string): (r: string)
    ensures IndexOf(s, pat, 0).None? ==> r == s
  {
    ReplaceFrom(s, pat, rep, 0, 0)
  }

  /** Templates that stand for the same text `lit` at every match of
      `pat`: a `$`-free text stands for itself, `$$` and a lone `$` for
      one dollar sign, and `$&` for the pattern. */
  predicate ExpandsTo(pat: string, rep: string, lit: string)
  {
    || ('$' !in rep && lit == rep)
    || ((rep == "$$" || rep == "$") && lit == "$")
    || (rep == "$&" && lit == pat)
  }

  lemma ExpandsAt(pat: string, s: string, p: nat, rep: string, lit: string)
    requires p + |pat| <= |s| && ExpandsTo(pat, rep, lit)
    ensures Substitution(pat, s, p, rep) == lit
  {
    SinglePatterns(pat, s, p);
  }

  /** Replacing a `$`-free pattern by itself changes nothing. */
  lemma SelfReplace(s: string, pat: string)
    requires '$' !in pat
    ensures ReplaceAll(s, pat, pat) == s
  {
    CopyReplaceFrom(s, pat, pat, 0, 0);
  }

  /** Replacing every match by `$&`, the match itself, changes nothing,
      whatever the pattern. */
  lemma ReplaceWithMatch(s: string, pat: string)
    ensures ReplaceAll(s, pat, "$&") == s
  {
    CopyReplaceFrom(s, pat, "$&", 0, 0);
  }

  /** A template that stands for the pattern at every match copies the
      text. */
  lemma {:induction false} CopyReplaceFrom(s: string, pat: string, rep: string, from: nat, lastEnd: nat)
    requires ExpandsTo(pat, rep, pat)
    requires lastEnd <= from && lastEnd <= |s|
    ensures ReplaceFrom(s, pat, rep, from, lastEnd) == s[lastEnd..]
    decreases |s| + 1 - from
  {
    var m := IndexOf(s, pat, from);
    if m.Some? {
      var p := m.value;
      var q := p + |pat|;
      var next := p + Advance(pat);
      var rest := ReplaceFrom(s, pat, rep, next, q);
      CopyStep(s, pat, rep, from, lastEnd, p);
      assert rest == s[q..] by {
        CopyReplaceFrom(s, pat, rep, next, q);
      }
      Reassemble(s, lastEnd, p, q, s[p..q], rest);
    }
  }

  /** One step of the replaceAll loop with a template that copies the
      match. */
  lemma CopyStep(s: string, pat: string, rep: string, from: nat, lastEnd: nat, p: nat)
    requires ExpandsTo(pat, rep, pat)
    requires lastEnd <= from && lastEnd <= |s| && IndexOf(s, pat, from) == Some(p)
    ensures lastEnd <= p && p + |pat| <= |s|
    ensures ReplaceFrom(s, pat, rep, from, lastEnd)
            == s[lastEnd..p] + s[p..p + |pat|] + ReplaceFrom(s, pat, rep, p + Advance(pat), p + |pat|)
  {
    ReplaceFromMatch(s, pat, rep, from, lastEnd, p);
    ExpandsAt(pat, s, p, rep, pat);
  }

  /** For a non-empty pattern, `$$` and a lone `$` both insert one
      dollar sign at every match. */
  lemma ReplaceWithDollar(s: string, pat: string)
    requires |pat| > 0
    ensures ReplaceAll(s, pat, "$$") == ReplaceAll(s, pat, "$")
  {
    ReplaceAllExpandsLeftmost(s, pat, "$$", "$");
    ReplaceAllExpandsLeftmost(s, pat, "$", "$");
  }

  /** With a single match at `p`, replaceAll puts the template's
      expansion at `p` in place of the match and keeps the rest. */
  lemma ReplaceOnce(s: string, pat: string, rep: string, p: nat)
    requires IndexOf(s, pat, 0) == Some(p) && IndexOf(s, pat, p + Advance(pat)).None?
    ensures p + |pat| <= |s|
    ensures ReplaceAll(s, pat, rep) == s[..p] + Substitution(pat, s, p, rep) + s[p + |pat|..]
  {
    ReplaceFromMatch(s, pat, rep, 0, 0, p);
  }

  /** With a single match, `$`` puts the text before it in its place and
      `$'` the text after it. */
  lemma ReplaceOnceAround(s: string, pat: string, p: nat)
    requires IndexOf(s, pat, 0) == Some(p) && IndexOf(s, pat, p + Advance(pat)).None?
    ensures p + |pat| <= |s|
    ensures ReplaceAll(s, pat, "$`") == s[..p] + s[..p] + s[p + |pat|..]
    ensures ReplaceAll(s, pat, "$'") == s[..p] + s[p + |pat|..] + s[p + |pat|..]
  {
    ReplaceOnce(s, pat, "$`", p);
    ReplaceOnce(s, pat, "$'", p);
    SinglePatterns(pat, s, p);
  }

  /** Cutting `s[a..]` at `p` and `q` and gluing the pieces back. */
  lemma Reassemble(s: string, a: nat, p: nat, q: nat, mid: string, rest: string)
    requires a <= p <= q <= |s| && mid == s[p..q] && rest == s[q..]
    ensures s[a..p] + mid + rest == s[a..]
  {
    assert s[a..] == s[a..p] + s[p..q] + s[q..];
  }

  /** Reference meaning of replaceAll for a non-empty pattern: scan left to
      right, replacing each match and resuming after it, so matches never
      overlap. */
  function LeftmostReplace(s: string, pat: string, rep: string): (r: string)
    requires |pat| > 0
  {
    if |s| < |pat| then s
    else if s[..|pat|] == pat then rep + LeftmostReplace(s[|pat|..], pat, rep)
    else [s[0]] + LeftmostReplace(s[1..], pat, rep)
  }

  /** For a non-empty pattern and a `$`-free replacement, replaceAll is
      leftmost non-overlapping replacement. */
  lemma ReplaceAllIsLeftmost(s: string, pat: string, rep: string)
    requires |pat| > 0 && '$' !in rep
    ensures ReplaceAll(s, pat, rep) == LeftmostReplace(s, pat, rep)
  {
    ReplaceFromIsLeftmost(s, pat, rep, rep, 0);
  }

  /** The same for every template that stands for one text at all
      matches: `$$` and `$` insert a dollar sign, `$&` the pattern. */
  lemma ReplaceAllExpandsLeftmost(s: string, pat: string, rep: string, lit: string)
    requires |pat| > 0 && ExpandsTo(pat, rep, lit)
    ensures ReplaceAll(s, pat, rep) == LeftmostReplace(s, pat, lit)
  {
    ReplaceFromIsLeftmost(s, pat, rep, lit, 0);
  }

  lemma {:induction false} ReplaceFromIsLeftmost(s: string, pat: string, rep: string, lit: string, k: nat)
    requires |pat| > 0 && ExpandsTo(pat, rep, lit) && k <= |s|
    ensures ReplaceFrom(s, pat, rep, k, k) == LeftmostReplace(s[k..], pat, lit)
    decreases |s| - k
  {
    var m := IndexOf(s, pat, k);
    if m.None? {
      assert LeftmostReplace(s[k..], pat, lit) == s[k..] by {
        LeftmostSkip(s, pat, lit, k, |s|);
        LeftmostTail(s, pat, lit);
      }
    } else {
      var p := m.value;
      var q := p + |pat|;
      assert q <= |s| && MatchesAt(s, pat, p);
      ReplaceFromIsLeftmost(s, pat, rep, lit, q);
      LeftmostAtNext(s, pat, rep, lit, k, p, q);
    }
  }

  /** The step of ReplaceFromIsLeftmost at the next match `p`. */
  lemma LeftmostAtNext(s: string, pat: string, rep: string, lit: string, k: nat, p: nat, q: nat)
    requires |pat| > 0 && ExpandsTo(pat, rep, lit) && k <= |s| && IndexOf(s, pat, k) == Some(p)
    requires q == p + |pat| <= |s|
    requires ReplaceFrom(s, pat, rep, q, q) == LeftmostReplace(s[q..], pat, lit)
    ensures ReplaceFrom(s, pat, rep, k, k) == LeftmostReplace(s[k..], pat, lit)
  {
    var tail := ReplaceFrom(s, pat, rep, q, q);
    var pre := s[k..p];
    LiteralStep(s, pat, rep, lit, k, p, q);
    assert LeftmostReplace(s[k..], pat, lit) == pre + (lit + tail) by {
      LeftmostSkip(s, pat, lit, k, p);
      LeftmostAtMatch(s, pat, lit, p, q);
    }
    ConcatAssoc(pre, lit, tail);
  }

  /** One step of the replaceAll loop with a template standing for
      `lit` and a non-empty pattern: the match is replaced by `lit` and
      the search resumes after it. */
  lemma LiteralStep(s: string, pat: string, rep: string, lit: string, k: nat, p: nat, q: nat)
    requires |pat| > 0 && ExpandsTo(pat, rep, lit) && k <= |s| && IndexOf(s, pat, k) == Some(p)
    requires q == p + |pat|
    ensures k <= p && q <= |s|
    ensures ReplaceFrom(s, pat, rep, k, k) == s[k..p] + lit + ReplaceFrom(s, pat, rep, q, q)
  {
    ReplaceFromMatch(s, pat, rep, k, k, p);
    ExpandsAt(pat, s, p, rep, lit);
  }

  /** One step of the replaceAll loop at a match `p`. */
  lemma ReplaceFromMatch(s: string, pat: string, rep: string, from: nat, lastEnd: nat, p: nat)
    requires lastEnd <= from && lastEnd <= |s| && IndexOf(s, pat, from) == Some(p)
    ensures lastEnd <= p && p + |pat| <= |s| && s[p..p + |pat|] == pat
    ensures ReplaceFrom(s, pat, rep, from, lastEnd)
            == s[lastEnd..p] + Substitution(pat, s, p, rep) + ReplaceFrom(s, pat, rep, p + Advance(pat), p + |pat|)
  {
  }

  /** LeftmostReplace at a match replaces it and resumes after it. */
  lemma LeftmostAtMatch(s: string, pat: string, rep: string, p: nat, q: nat)
    requires |pat| > 0 && MatchesAt(s, pat, p) && q == p + |pat|
    ensures LeftmostReplace(s[p..], pat, rep) == rep + LeftmostReplace(s[q..], pat, rep)
  {
    assert s[p..][..|pat|] == pat;
    assert s[p..][|pat|..] == s[q..];
  }

  lemma LeftmostTail(s: string, pat: string, rep: string)
    requires |pat| > 0
    ensures LeftmostReplace(s[|s|..], pat, rep) == []
  {
    assert s[|s|..] == [];
  }

  /** LeftmostReplace copies a stretch with no match starting in it. */
  lemma {:induction false} LeftmostSkip(s: string, pat: string, rep: string, k: nat, j: nat)
    requires |pat| > 0 && k <= j <= |s|
    requires forall m :: k <= m < j ==> !MatchesAt(s, pat, m)
    ensures LeftmostReplace(s[k..], pat, rep) == s[k..j] + LeftmostReplace(s[j..], pat, rep)
    decreases j - k
  {
    if k < j {
      var tail := LeftmostReplace(s[j..], pat, rep);
      assert LeftmostReplace(s[k..], pat, rep) == [s[k]] + LeftmostReplace(s[k + 1..], pat, rep) by {
        LeftmostNoMatch(s, pat, rep, k);
      }
      assert LeftmostReplace(s[k + 1..], pat, rep) == s[k + 1..j] + tail by {
        LeftmostSkip(s, pat, rep, k + 1, j);
      }
      assert s[k..j] == [s[k]] + s[k + 1..j];
      ConcatAssoc([s[k]], s[k + 1..j], tail);
    }
  }

  /** Without a match at `k`, LeftmostReplace copies `s[k]`. */
  lemma LeftmostNoMatch(s: string, pat: string, rep: string, k: nat)
    requires |pat| > 0 && k < |s| && !MatchesAt(s, pat, k)
    ensures LeftmostReplace(s[k..], pat, rep) == [s[k]] + LeftmostReplace(s[k + 1..], pat, rep)
  {
    var t := s[k..];
    assert t[1..] == s[k + 1..];
    if |t| < |pat| {
      assert t == [s[k]] + s[k + 1..];
    } else {
      assert t[..|pat|] == s[k..k + |pat|];
    }
  }


  /** Reference meaning of replaceAll with an empty pattern: the
      replacement goes before every character and at the end. */
  function Interleave(s: string, rep: string): (r: string)
    ensures |r| == |s| + (|s| + 1) * |rep|
  {
    if |s| == 0 then rep else rep + [s[0]] + Interleave(s[1..], rep)
  }

  lemma EmptyPatternInterleaves(s: string, rep: string)
    requires '$' !in rep
    ensures ReplaceAll(s, "", rep) == Interleave(s, rep)
  {
    EmptyPatternFrom(s, rep, 0);
  }

  lemma {:induction false} EmptyPatternFrom(s: string, rep: string, k: nat)
    requires '$' !in rep && k <= |s|
    ensures ReplaceFrom(s, "", rep, k, k) == Interleave(s[k..], rep)
    decreases |s| - k
  {
    EmptyMatchAt(s, rep, k, k);
    if k < |s| {
      var inner := ReplaceFrom(s, "", rep, k + 1, k + 1);
      assert ReplaceFrom(s, "", rep, k + 1, k) == [s[k]] + rep + ReplaceFrom(s, "", rep, k + 2, k + 1) by {
        EmptyMatchAt(s, rep, k + 1, k);
        assert s[k..k + 1] == [s[k]];
      }
      assert ReplaceFrom(s, "", rep, k + 1, k) == [s[k]] + inner by {
        EmptyMatchAt(s, rep, k + 1, k + 1);
        assert s[k + 1..k + 1] == [];
      }
      assert inner == Interleave(s[k + 1..], rep) by {
        EmptyPatternFrom(s, rep, k + 1);
      }
      assert s[k..][1..] == s[k + 1..];
      ConcatAssoc(rep, [s[k]], inner);
    } else {
      assert IndexOf(s, "", k + 1).None?;
    }
  }

  /** With the empty pattern every position up to the end is a match, so
      one step of the loop copies the gap and inserts the replacement. */
  lemma EmptyMatchAt(s: string, rep: string, from: nat, lastEnd: nat)
    requires '$' !in rep && lastEnd <= from <= |s|
    ensures ReplaceFrom(s, "", rep, from, lastEnd) == s[lastEnd..from] + rep + ReplaceFrom(s, "", rep, from + 1, from)
  {
    assert MatchesAt(s, "", from) by {
      assert s[from..from + 0] == "";
    }
    assert IndexOf(s, "", from) == Some(from);
    assert Substitution("", s, from, rep) == rep;
    assert Advance("") == 1;
  }


  /** The substitution list of `useTemplate`/`fetchTxt`: each pair
      `[find, replace]` applied as replaceAll, in list order. Pairs that
      replace a `$`-free text by itself leave the content as it was. */
  function ApplySubs(content: string, subs: seq<(string, string)>): (r: string)
    ensures (forall i :: 0 <= i < |subs| ==> subs[i].0 == subs[i].1 && '$' !in subs[i].1) ==> r == content
    decreases |subs|
  {
    if |subs| == 0 then content
    else
      var next := ReplaceAll(content, subs[0].0, subs[0].1);
      assert subs[0].0 == subs[0].1 && '$' !in subs[0].1 ==> next == content by {
        if subs[0].0 == subs[0].1 && '$' !in subs[0].1 {
          SelfReplace(content, subs[0].0);
        }
      }
      ApplySubs(next, subs[1..])
  }

  /** A single pair is one `replaceAll`. */
  lemma ApplySubsOne(content: string, find: string, replace: string)
    ensures ApplySubs(content, [(find, replace)]) == ReplaceAll(content, find, replace)
  {
    assert [(find, replace)][1..] == [];
  }

  /** The list is a left fold of `replaceAll`: the last pair is applied,
      as `replaceAll`, to the result of all the pairs before it. */
  lemma ApplySubsSnoc(content: string, subs: seq<(string, string)>, find: string, replace: string)
    ensures ApplySubs(content, subs + [(find, replace)]) == ReplaceAll(ApplySubs(content, subs), find, replace)
  {
    ApplySubsAppend(content, subs, [(find, replace)]);
    ApplySubsOne(ApplySubs(content, subs), find, replace);
  }

  /** Applying a list is applying its first part, then the rest on the
      result: later pairs see the output of earlier ones. */
  lemma {:induction false} ApplySubsAppend(content: string, a: seq<(string, string)>, b: seq<(string, string)>)
    ensures ApplySubs(content, a + b) == ApplySubs(ApplySubs(content, a), b)
    decreases |a|
  {
    if |a| == 0 {
      assert a + b == b;
    } else {
      assert (a + b)[1..] == a[1..] + b;
      ApplySubsAppend(ReplaceAll(content, a[0].0, a[0].1), a[1..], b);
    }
  }

  /** Pairs whose pattern never occurs leave the content unchanged. */
  lemma {:induction false} ApplySubsAbsent(content: string, subs: seq<(string, string)>)
    requires forall i :: 0 <= i < |subs| ==> IndexOf(content, subs[i].0, 0).None?
    ensures ApplySubs(content, subs) == content
    decreases |subs|
  {
    if |subs| > 0 {
      ApplySubsAbsent(content, subs[1..]);
    }
  }
}

=== FILE: scenarios.dfy ===
/** Small pages run through the model: declarations read by the
    splitter, a host connecting to a global class, `forward` reaching a
    bound receiver, and `data-send` falling back to a null element. Names
    are kept symbolic: any trimmed, pipe-free name behaves the same. */
module Scenarios {
  import opened Base
  import opened Text
  import opened Dom
  import opened Ids
  import opened Receivers
  import opened Dispatch
  import opened Bridge
  import opened Connection
  import opened Lifecycle

  /** A name as written in a declaration: trimmed and pipe-free. */
  predicate PlainName(s: string)
  {
    '|' !in s && Trimmed(s)
  }

  lemma TwoNames(a: string, b: string)
    requires PlainName(a) && PlainName(b)
    ensures SplitNames(a + "|" + b) == [a, b]
  {
    SplitNamesPair(a, b);
    TrimTrimmed(a);
    TrimTrimmed(b);
  }

  /** `"a|b|c"` reads as three names, in order. */
  lemma ThreeNames(a: string, b: string, c: string)
    requires PlainName(a) && PlainName(b) && PlainName(c)
    ensures SplitNames(a + "|" + b + "|" + c) == [a, b, c]
  {
    var bc := b + "|" + c;
    var x := SplitNames(bc);
    assert x == [b, c] by {
      TwoNames(b, c);
    }
    assert SplitNames(a + "|" + bc) == [a] + x by {
      SplitNamesConcat(a, bc);
      SingleName(a);
    }
    assert [a] + [b, c] == [a, b, c];
    assert a + "|" + b + "|" + c == a + "|" + bc by {
      ConcatAssoc(a + "|" + b, "|", c);
      ConcatAssoc(a + "|", b, "|" + c);
      ConcatAssoc(b, "|", c);
    }
  }

  /** `"a||b"` keeps the empty name between the pipes, and `""` is one
      empty name. */
  lemma EmptySegmentsKept(a: string, b: string)
    requires PlainName(a) && PlainName(b)
    ensures SplitNames(a + "||" + b) == [a, "", b]
    ensures SplitNames("") == [""]
  {
    assert SplitNames("") == [""] by {
      SingleName("");
    }
    assert a + "||" + b == a + "|" + "" + "|" + b;
    ThreeNames(a, "", b);
  }

  /** Whitespace around a name is dropped. */
  lemma SplitTrims()
    ensures SplitNames(" a ") == ["a"]
  {
    assert SplitNames(" a ") == [Trim(" a ")] by {
      SplitNamesOne(" a ");
    }
    assert TrimStart(" a ") == "a " by {
      assert LeadingSpace(" a ") == 1 by {
        assert LeadingSpace("a ") == 0;
      }
    }
    assert TrimEnd("a ") == "a" by {
      assert TrailingSpace("a ") == 1 by {
        assert TrailingSpace("a") == 0;
      }
    }
  }

  /** The controller of a class whose instances have the one method
      `sig`, once the host has attached itself as `api`. */
  function Attached(sig: string): (r: Controller)
    ensures sig in r.methods
  {
    WithApi(Controller({sig}, {sig}))
  }

  /** `<bitty-2-0 data-connect="cls">` holding one `<span
      data-receive="sig">`, where the global `cls` is a class whose
      instances have the one method `sig` (a name other than `api`, which
      the host takes over): connecting calls nothing and binds the span,
      and `forward(null, sig)` then calls `sig` once with the span. */
  lemma ConnectThenForward(supply: nat -> string, cls: string, sig: string)
    requires PlainName(cls) && cls != "" && PlainName(sig) && sig != "" && sig != "bittyInit" && sig != "api"
    ensures var env := Env(map[cls := Class({sig}, {sig})], map[]);
            var doc := [Element("SPAN", map["receive" := sig])];
            var step := Connect(map["connect" := cls], doc, env, supply, 0);
            && step.host.conn == Some(Attached(sig))
            && step.calls == []
            && step.host.receivers == [Receiver(sig, 0)]
            && Forward(None, sig, step.host.receivers, Attached(sig))
               == Ok(Handled(Event("bittyforward", Some(Target("", Some(map[])))),
                             [Invocation(sig, Some(0))]))
  {
    Connects(supply, cls, sig);
    Forwarded(sig, Attached(sig));
  }

  lemma Connects(supply: nat -> string, cls: string, sig: string)
    requires PlainName(cls) && cls != "" && PlainName(sig) && sig != "bittyInit"
    ensures var env := Env(map[cls := Class({sig}, {sig})], map[]);
            var doc := [Element("SPAN", map["receive" := sig])];
            var step := Connect(map["connect" := cls], doc, env, supply, 0);
            && step.host.conn == Some(Attached(sig))
            && step.calls == []
            && step.host.receivers == [Receiver(sig, 0)]
  {
    var env := Env(map[cls := Class({sig}, {sig})], map[]);
    var host: Dataset := map["connect" := cls];
    var doc := [Element("SPAN", map["receive" := sig])];
    assert MakeConnection(host, env) == Ok(Controller({sig}, {sig})) by {
      Resolves(cls, sig);
    }
    assert Connect(host, doc, env, supply, 0).calls == [] by {
      assert !Truthy(host, "send");
      ConnectWithoutSend(host, doc, env, supply, 0);
    }
    SpanTable(supply, sig, Attached(sig));
  }

  /** After ids are assigned, the span still declares `sig`, and it is
      the only binding. */
  lemma SpanTable(supply: nat -> string, sig: string, ctrl: Controller)
    requires PlainName(sig) && sig in ctrl.methods
    ensures LoadReceivers(SetIds([Element("SPAN", map["receive" := sig])], supply, 1).doc, ctrl)
            == [Receiver(sig, 0)]
  {
    var doc' := SetIds([Element("SPAN", map["receive" := sig])], supply, 1).doc;
    SpanKeepsReceive(supply, sig);
    assert doc' == [doc'[0]];
    OneReceiver(doc'[0], sig, ctrl);
  }

  lemma Resolves(cls: string, sig: string)
    requires PlainName(cls) && cls != ""
    ensures MakeConnection(map["connect" := cls], Env(map[cls := Class({sig}, {sig})], map[]))
            == Ok(Controller({sig}, {sig}))
  {
    assert ConnectParts(map["connect" := cls]) == [cls] by {
      SingleName(cls);
    }
  }

  lemma SpanKeepsReceive(supply: nat -> string, sig: string)
    ensures var doc' := SetIds([Element("SPAN", map["receive" := sig])], supply, 1).doc;
            |doc'| == 1 && "receive" in doc'[0].dataset && doc'[0].dataset["receive"] == sig
  {
    var doc := [Element("SPAN", map["receive" := sig])];
    SetIdsStamps(doc, supply, 1);
    assert SetIds(doc, supply, 1).doc[0] == Allocation(doc, supply, 1, 0);
  }

  /** One descendant declaring `sig`, under a controller with `sig`,
      gives a one-entry table. */
  lemma OneReceiver(e: Element, sig: string, ctrl: Controller)
    requires "receive" in e.dataset && e.dataset["receive"] == sig && PlainName(sig)
    requires sig in ctrl.methods
    ensures LoadReceivers([e], ctrl) == [Receiver(sig, 0)]
  {
    assert LoadReceivers([e], ctrl) == Bind(Declared(e), ctrl, 0) by {
      assert [e][..0] == [];
    }
    assert Declared(e) == [sig] by {
      SingleName(sig);
    }
    assert [sig][1..] == [];
  }

  lemma Forwarded(sig: string, ctrl: Controller)
    requires PlainName(sig) && sig != ""
    ensures Forward(None, sig, [Receiver(sig, 0)], ctrl)
            == Ok(Handled(Event("bittyforward", Some(Target("", Some(map[])))),
                          [Invocation(sig, Some(0))]))
  {
    var table := [Receiver(sig, 0)];
    var t := ProcessSignals(table, ctrl, sig);
    assert t == [Invocation(sig, Some(0))] by {
      TrimTrimmed(sig);
      ProcessSingle(table, ctrl, sig);
      assert BoundTo(table, sig) == [0];
    }
    var d: Dataset := map["forward" := sig];
    assert ForwardEvent(None, sig) == Event("bittyforward", Some(Target("", Some(d))));
    assert HandleEvent(Event("bittyforward", Some(Target("", Some(d)))), table, ctrl)
           == Ok(Handled(Event("bittyforward", Some(Target("", Some(map[])))), t)) by {
      assert d - {"forward"} == map[];
    }
  }

  /** A host with `data-send="sig"` and no `data-connect`, whose global
      `BittyClass` has the one method `sig` (not `api`), and no
      descendants: connecting calls `sig` once with a null element. */
  lemma SendOnConnect(supply: nat -> string, sig: string)
    requires PlainName(sig) && sig != "" && sig != "bittyInit" && sig != "api"
    ensures var env := Env(map["BittyClass" := Class({sig}, {sig})], map[]);
            Connect(map["send" := sig], [], env, supply, 0).calls
            == [Handler(Invocation(sig, None))]
  {
    var env := Env(map["BittyClass" := Class({sig}, {sig})], map[]);
    var host: Dataset := map["send" := sig];
    var ctrl := Attached(sig);
    FallsBackToBittyClass(sig);
    var table := LoadReceivers(SetIds([], supply, 1).doc, ctrl);
    assert Connect(host, [], env, supply, 0).calls == Handlers(ProcessSignals(table, ctrl, sig)) by {
      assert Truthy(host, "send") && !Truthy(host, "forward") && host["send"] == sig;
      ConnectSends(host, [], env, supply, 0);
    }
    assert table == [] by {
      assert SetIds([], supply, 1) == Allocated([], 1);
    }
    NullElement(sig, ctrl);
  }

  /** Without `data-connect` the global `BittyClass` is used. */
  lemma FallsBackToBittyClass(sig: string)
    ensures MakeConnection(map["send" := sig], Env(map["BittyClass" := Class({sig}, {sig})], map[]))
            == Ok(Controller({sig}, {sig}))
  {
    assert !Truthy(map["send" := sig], "connect");
  }

  /** A method with no bound receiver is called once with a null element. */
  lemma NullElement(sig: string, ctrl: Controller)
    requires PlainName(sig) && sig in ctrl.methods
    ensures Handlers(ProcessSignals([], ctrl, sig)) == [Handler(Invocation(sig, None))]
  {
    assert ProcessSignals([], ctrl, sig) == [Invocation(sig, None)] by {
      TrimTrimmed(sig);
      ProcessSingle([], ctrl, sig);
      assert BoundTo([], sig) == [];
    }
  }
}

=== FILE: text.dfy ===
/** The string primitives the element relies on: `String.prototype.trim`,
    `split` on a one-character separator, and the pipe-delimited
    declaration reader built from them (`value.split("|").map(trim)`). */
module Text {
  import opened Base

  /** ECMAScript WhiteSpace and LineTerminator code points: exactly what
      `String.prototype.trim` removes from both ends. */
  predicate IsSpace(c: char)
  {
    || c == '\t' || c == '\n' || c == '\U{B}' || c == '\U{C}' || c == '\r'
    || c == ' ' || c == '\U{A0}' || c == '\U{1680}'
    || ('\U{2000}' <= c <= '\U{200A}')
    || c == '\U{2028}' || c == '\U{2029}' || c == '\U{202F}'
    || c == '\U{205F}' || c == '\U{3000}' || c == '\U{FEFF}'
  }

  /** No whitespace at either end: the shape of every trimmed string. */
  predicate Trimmed(s: string)
  {
    |s| == 0 || (!IsSpace(s[0]) && !IsSpace(s[|s| - 1]))
  }

  /** Length of the whitespace run that opens `s`. */
  function LeadingSpace(s: string): (n: nat)
    ensures n <= |s|
    ensures forall k :: 0 <= k < n ==> IsSpace(s[k])
    ensures n < |s| ==> !IsSpace(s[n])
  {
    if |s| > 0 && IsSpace(s[0]) then 1 + LeadingSpace(s[1..]) else 0
  }

  /** Length of the whitespace run that closes `s`. */
  function TrailingSpace(s: string): (n: nat)
    ensures n <= |s|
    ensures forall k :: |s| - n <= k < |s| ==> IsSpace(s[k])
    ensures n < |s| ==> !IsSpace(s[|s| - n - 1])
  {
    if |s| > 0 && IsSpace(s[|s| - 1]) then 1 + TrailingSpace(s[..|s| - 1]) else 0
  }

  /** `trimStart`: drop the opening whitespace run. */
  function TrimStart(s: string): (r: string)
    ensures |r| <= |s| && (|r| > 0 ==> !IsSpace(r[0]))
  {
    s[LeadingSpace(s)..]
  }

  /** `trimEnd`: drop the closing whitespace run. */
  function TrimEnd(s: string): (r: string)
    ensures |r| <= |s| && (|r| > 0 ==> !IsSpace(r[|r| - 1]))
  {
    s[..|s| - TrailingSpace(s)]
  }

  /** `String.prototype.trim`: what is left of `s` after dropping the
      whitespace run at each end. The result starts at the first
      non-space character, copies `s` from there, and only whitespace
      follows it. */
  function Trim(s: string): (r: string)
    ensures Trimmed(r)
    ensures var i := LeadingSpace(s);
              && i + |r| <= |s|
              && (forall k :: 0 <= k < |r| ==> r[k] == s[i + k])
              && (forall k :: 0 <= k < i ==> IsSpace(s[k]))
              && (forall k :: i + |r| <= k < |s| ==> IsSpace(s[k]))
  {
    var a := TrimStart(s);
    var r := TrimEnd(a);
    assert forall k :: LeadingSpace(s) + |r| <= k < |s| ==> IsSpace(s[k]) by {
      forall k | LeadingSpace(s) + |r| <= k < |s| ensures IsSpace(s[k]) {
        assert s[k] == a[k - LeadingSpace(s)];
      }
    }
    r
  }

  lemma TrimIdempotent(s: string)
    ensures Trim(Trim(s)) == Trim(s)
  {
    TrimTrimmed(Trim(s));
  }

  /** A string without surrounding whitespace is its own trim. */
  lemma TrimTrimmed(s: string)
    requires Trimmed(s)
    ensures Trim(s) == s
  {
    assert TrimStart(s) == s;
    assert TrimEnd(s) == s;
  }

  /** Trimming never introduces a character. */
  lemma TrimExcludes(s: string, c: char)
    requires c !in s
    ensures c !in Trim(s)
  {
    var t := Trim(s);
    var i := LeadingSpace(s);
    forall k | 0 <= k < |t| ensures t[k] != c {
      assert t[k] == s[i + k];
    }
  }

  /** `s.split(sep)` for a one-character separator: the pieces between
      separators, empty pieces included ("".split("|") is [""]). */
  function Split(s: string, sep: char): (r: seq<string>)
    ensures |r| == Occurrences(s, sep) + 1
  {
    if |s| == 0 then [""]
    else
      var rest := Split(s[1..], sep);
      if s[0] == sep then [""] + rest
      else [[s[0]] + rest[0]] + rest[1..]
  }

  /** No piece contains the separator. */
  lemma {:induction false} SplitExcludes(s: string, sep: char)
    ensures forall i :: 0 <= i < |Split(s, sep)| ==> sep !in Split(s, sep)[i]
  {
    if |s| > 0 {
      SplitExcludes(s[1..], sep);
      var rest := Split(s[1..], sep);
      var r := Split(s, sep);
      if s[0] != sep {
        assert sep !in [s[0]] + rest[0];
        forall i | 1 <= i < |r| ensures sep !in r[i] {
          assert r[i] == rest[i];
        }
      } else {
        forall i | 1 <= i < |r| ensures sep !in r[i] {
          assert r[i] == rest[i - 1];
        }
      }
    }
  }

  /** `parts.join(sep)`: one separator between neighbouring parts. */
  function Join(parts: seq<string>, sep: char): (r: string)
  {
    if |parts| == 0 then ""
    else if |parts| == 1 then parts[0]
    else parts[0] + [sep] + Join(parts[1..], sep)
  }

  /** Joining the pieces with the separator gives back the original text. */
  lemma {:induction false} JoinSplit(s: string, sep: char)
    ensures Join(Split(s, sep), sep) == s
  {
    if |s| > 0 {
      var rest := Split(s[1..], sep);
      JoinSplit(s[1..], sep);
      if s[0] == sep {
        assert Split(s, sep)[1..] == rest;
      } else {
        var r := Split(s, sep);
        if |rest| == 1 {
          assert r == [[s[0]] + rest[0]];
        } else {
          assert r[1..] == rest[1..];
          assert Join(rest, sep) == rest[0] + [sep] + Join(rest[1..], sep);
        }
      }
    }
  }

  /** Splitting joined pieces that do not contain the separator gives back
      the pieces. */
  lemma {:induction false} SplitJoin(parts: seq<string>, sep: char)
    requires |parts| > 0
    requires forall i :: 0 <= i < |parts| ==> sep !in parts[i]
    ensures Split(Join(parts, sep), sep) == parts
  {
    if |parts| == 1 {
      SplitNoSeparator(parts[0], sep);
    } else {
      SplitJoin(parts[1..], sep);
      SplitConcat(parts[0], Join(parts[1..], sep), sep);
      SplitNoSeparator(parts[0], sep);
      assert parts == [parts[0]] + parts[1..];
    }
  }

  lemma {:induction false} SplitNoSeparator(s: string, sep: char)
    requires sep !in s
    ensures Split(s, sep) == [s]
  {
    if |s| > 0 {
      SplitNoSeparator(s[1..], sep);
      assert [s[0]] + s[1..] == s;
    }
  }

  /** Splitting `a + sep + b` splits `a` and `b` separately; the last piece
      of `a` and the first of `b` stay apart. */
  lemma {:induction false} SplitConcat(a: string, b: string, sep: char)
    ensures Split(a + [sep] + b, sep) == Split(a, sep) + Split(b, sep)
  {
    var sb := Split(b, sep);
    if |a| == 0 {
      assert a + [sep] + b == [sep] + b;
      assert ([sep] + b)[1..] == b;
    } else {
      var ra := Split(a[1..], sep);
      assert (a + [sep] + b)[1..] == a[1..] + [sep] + b;
      assert Split(a[1..] + [sep] + b, sep) == ra + sb by {
        SplitConcat(a[1..], b, sep);
      }
      if a[0] != sep {
        assert (ra + sb)[0] == ra[0];
        assert (ra + sb)[1..] == ra[1..] + sb;
      } else {
        ConcatAssoc([""], ra, sb);
      }
    }
  }


  /** Trim every piece. */
  function TrimAll(parts: seq<string>): (r: seq<string>)
    ensures |r| == |parts|
    ensures forall i :: 0 <= i < |r| ==> r[i] == Trim(parts[i])
  {
    seq(|parts|, i requires 0 <= i < |parts| => Trim(parts[i]))
  }

  /** The declaration reader used for data-receive, data-send,
      data-connect and data-listeners: split on '|', trim each piece,
      keep empty pieces. */
  function SplitNames(s: string): (r: seq<string>)
    ensures |r| == Occurrences(s, '|') + 1
    ensures forall i :: 0 <= i < |r| ==> Trimmed(r[i]) && '|' !in r[i]
  {
    var raw := Split(s, '|');
    var r := TrimAll(raw);
    assert forall i :: 0 <= i < |r| ==> '|' !in r[i] by {
      SplitExcludes(s, '|');
      forall i | 0 <= i < |r| ensures '|' !in r[i] {
        TrimExcludes(raw[i], '|');
      }
    }
    r
  }

  /** The names of `a|b` are the names of `a` followed by those of `b`. */
  lemma SplitNamesConcat(a: string, b: string)
    ensures SplitNames(a + "|" + b) == SplitNames(a) + SplitNames(b)
  {
    SplitConcat(a, b, '|');
  }

  /** Joining names that are already trimmed and pipe-free and reading
      them back gives the same names. */
  lemma SplitNamesJoin(names: seq<string>)
    requires |names| > 0
    requires forall i :: 0 <= i < |names| ==> Trimmed(names[i]) && '|' !in names[i]
    ensures SplitNames(Join(names, '|')) == names
  {
    SplitJoin(names, '|');
    forall i | 0 <= i < |names| ensures Trim(names[i]) == names[i] {
      TrimTrimmed(names[i]);
    }
  }

  /** The lines of `fetchLines`: split on "\n", trim each line. */
  function Lines(s: string): (r: seq<string>)
    ensures |r| == Occurrences(s, '\n') + 1
    ensures forall i :: 0 <= i < |r| ==> Trimmed(r[i])
  {
    TrimAll(Split(s, '\n'))
  }

  /** The lines of `a + "\n" + b` are the lines of `a` followed by those
      of `b`. */
  lemma LinesConcat(a: string, b: string)
    ensures Lines(a + "\n" + b) == Lines(a) + Lines(b)
  {
    SplitConcat(a, b, '\n');
  }

  /** Text without a newline is one line, trimmed. */
  lemma LinesOne(s: string)
    requires '\n' !in s
    ensures Lines(s) == [Trim(s)]
  {
    var raw := Split(s, '\n');
    assert raw == [s] by {
      SplitNoSeparator(s, '\n');
    }
    var r := TrimAll(raw);
    assert |r| == 1 && r[0] == Trim(s);
  }

  /** A pipe-free declaration is one name, trimmed. */
  lemma SplitNamesOne(s: string)
    requires '|' !in s
    ensures SplitNames(s) == [Trim(s)]
  {
    var raw := Split(s, '|');
    assert raw == [s] by {
      SplitNoSeparator(s, '|');
    }
    var r := TrimAll(raw);
    assert |r| == 1 && r[0] == Trim(s);
  }

  /** A declaration with one pipe is two names, each trimmed. */
  lemma SplitNamesPair(a: string, b: string)
    requires '|' !in a && '|' !in b
    ensures SplitNames(a + "|" + b) == [Trim(a), Trim(b)]
  {
    var x, y := SplitNames(a), SplitNames(b);
    assert SplitNames(a + "|" + b) == x + y by {
      SplitNamesConcat(a, b);
    }
    assert x == [Trim(a)] && y == [Trim(b)] by {
      SplitNamesOne(a);
      SplitNamesOne(b);
    }
    assert [Trim(a)] + [Trim(b)] == [Trim(a), Trim(b)];
  }

  /** A trimmed, pipe-free declaration is a single name. */
  lemma SingleName(s: string)
    requires '|' !in s && Trimmed(s)
    ensures SplitNames(s) == [s]
  {
    SplitNamesOne(s);
    TrimTrimmed(s);
  }
}
